=== FILE: README.md ===
# tasks2subissues in Dafny

A model of the pure core of `tasks2subissues.py`. The tool reads the markdown checklist of a GitHub
"parent" issue and turns each checklist entry that is an issue URL into a real sub-issue of the parent.
- Issues under another owner first get a placeholder ("reference") issue in a configured repository.
- Plain-text entries are written back as a smaller tasklist.
- The parent body is rewritten only when no step failed.

Modules, following the structure of the script:

- `Wrappers`: `Option` and `Result`, the model's replacements for `None` and for raised exceptions.
- `Text`: the Python string operations the script relies on, over `seq<char>`.
  - `str.isspace` is defined as a predicate.
  - `strip()`, `startswith`, `split(sep)` and `sep.join` are modelled as functions.
- `GitHubUrl`: `is_github_issue_url`, `split_github_issue_url` and `split_github_repo_url`. Each
  `ValueError` becomes a `Failure`.
- `Tasklist`: `extract_tasks` (the line scanner) and `create_tasklist_body` (the serialiser), with the
  round trip between them.
- `TasklistBlock`: `replace_tasklist_in_issue_body`. The regular expression
  ``` ``` *\[tasklist\](.|\n)*?``` ``` is matched by hand: the leftmost start wins, the spaces run to
  the first non-space, and the lazy repetition stops at the first closing fence.
- `Client`: the pure parts of the GitHub client.
  - The title `owner/repo#id:title` and the body of a placeholder issue.
  - The checks `create_reference_issue` makes on fetched details.
  - The `" | "`-joined GraphQL error message of `link_parent_issue_and_sub_issue`.
- `Orchestrator`: `Tasks2Subissues.__init__` (reference repository configuration) and
  `create_sub_issues`.
  - The remote service is a record of three functions: issue details, the URL of a created
    issue, and the answer to a link mutation. Each is given the call's position in its loop (the
    `n`-th different-owner URL, the `n`-th link attempt) as well as its request, so repeated
    identical calls may be answered differently.
  - So a run is a pure function of the parent URL, the fetched parent body, the configured
    reference repository and those answers.
  - It yields either a fatal abort or a report: the error count, the URLs it tried to link (in
    order), and the new parent body it would write, if any.

Quirks of the script are kept as written:
- The checked flag is read from the stripped line, but the text is taken from the unstripped line
  after five characters, so an indented item keeps marker debris (`Tasklist.IndentedItemKeepsMarkerDebris`).
- The comment above `is_github_issue_url` (lines 12-17) speaks of checking the URL, but the code
  checks the *stripped* text, while `split_github_issue_url` does not strip. For untrimmed text
  the classification step would count an error. Tasks read from a body are always trimmed, so that
  error path is dead in a real run (`Orchestrator.ParentClassifiesCleanly`).
- Only a lower-case `x` marks a checked item. The issue number is an unchecked string, and
  segments after it are accepted.
- The repository URL must have exactly two segments after `https://github.com/`, so a trailing
  slash is rejected.

## Model

| member | source | states |
|---|---|---|
| Text.Strip | tasks2subissues.py:20 | `strip()` leaves no whitespace at either end and never lengthens the text |
| Text.TrimStartShape | tasks2subissues.py:20 | what the leading-whitespace trim keeps is a suffix of the text after a run of whitespace, starting on a non-space |
| Text.TrimEndShape | tasks2subissues.py:20 | what the trailing-whitespace trim keeps is a prefix of the text before a run of whitespace, ending on a non-space |
| Text.StripCore | tasks2subissues.py:20 | what `strip()` keeps is one contiguous piece of the text with only whitespace before and after it |
| Text.StripIdempotent | tasks2subissues.py:33 | stripping twice is stripping once |
| Text.Split | tasks2subissues.py:23 | `split('/')` yields at least one separator-free piece, and the pieces joined with the separator give back the text |
| Text.SplitJoin | tasks2subissues.py:61 | splitting inverts joining for separator-free pieces |
| GitHubUrl.SplitGitHubIssueUrl | tasks2subissues.py:53-68 | on success the owner, repo and number are single segments and the URL is the canonical URL of that issue, possibly followed by `/`-segments; the missing-prefix error is reported exactly when the prefix is absent, otherwise the error carries the path |
| GitHubUrl.IssueUrlRoundTrip | tasks2subissues.py:53-68 | the canonical URL of any well-formed issue, with or without further trailing segments, parses back to that issue |
| GitHubUrl.IsGitHubIssueUrl | tasks2subissues.py:19-26 | `is_github_issue_url` accepts a text exactly when its stripped form parses as an issue URL |
| GitHubUrl.RecognisedIffParsed | tasks2subissues.py:19-26 | for text with no surrounding whitespace, recognising and parsing agree in both directions |
| GitHubUrl.SplitGitHubRepoUrl | tasks2subissues.py:79-93 | on success the URL is exactly the canonical URL of two single-segment parts; the missing-prefix error is reported exactly when the prefix is absent |
| GitHubUrl.RepoUrlRoundTrip | tasks2subissues.py:79-93 | the canonical URL of any well-formed repository parses back to it |
| Tasklist.TaskOfLine | tasks2subissues.py:33-38 | a line yields a record exactly when its stripped form starts with `- [ ]` or `- [x]`; the flag holds exactly for `- [x]`; the text is trimmed, shorter than the line by at least five, and single-line when the line is |
| Tasklist.MarkedLineTask | tasks2subissues.py:33-38 | a line whose stripped form starts with a marker yields that marker's flag and, as text, the stripped rest of the *unstripped* line after its first five characters |
| Tasklist.ExtractTasks | tasks2subissues.py:29-41 | no more records than lines, every text trimmed and free of line breaks |
| Tasklist.ExtractAppend | tasks2subissues.py:32-39 | extraction works line by line: the records of two line lists are the records of each, concatenated |
| Tasklist.ExtractedInSourceOrder | tasks2subissues.py:29-41 | every record comes from a distinct task line, in increasing line order, and every task line contributes its record |
| Tasklist.IndentedItem | tasks2subissues.py:33-38 | an item indented by up to five whitespace characters keeps its flag, but its text is cut five characters into the indented line |
| Tasklist.IndentedItemKeepsMarkerDebris | tasks2subissues.py:34-38 | `"  - [x] foo"` is read as a checked task with text `"x] foo"` |
| Tasklist.CreateTasklistBody | tasks2subissues.py:96-108 | the result is empty exactly for no tasks; otherwise it opens with the fence, tag and heading lines and ends with a closing fence line |
| Tasklist.TasklistBodyLines | tasks2subissues.py:96-108 | for tasks whose texts hold no line break, the written block splits into exactly: opening line, heading, one checkbox line per task in order, closing fence |
| Tasklist.TaskLineRoundTrip | tasks2subissues.py:33-38 | the checkbox line written for a task with trimmed text reads back as that task |
| Tasklist.TasklistRoundTrip | tasks2subissues.py:29-108 | extracting from the block written for trimmed single-line tasks gives back exactly those tasks |
| Tasklist.ExtractCreateExtract | tasks2subissues.py:29-108 | re-serialising what was extracted from any body and extracting again gives the same records |
| TasklistBlock.SkipSpacesSpec | tasks2subissues.py:114 | the ` *` part of the pattern consumes spaces only and stops at the end or on a non-space |
| TasklistBlock.FindFenceSpec | tasks2subissues.py:114 | the lazy any-character repetition of the pattern stops at the first closing fence, or there is none |
| TasklistBlock.FindFromSpec | tasks2subissues.py:114-116 | scanning start positions from a given one finds the first at which a block starts, or proves none starts from there on |
| TasklistBlock.MatchAtSpec | tasks2subissues.py:114 | a match found at a position is a block of the pattern starting there, and no block starts there otherwise |
| TasklistBlock.FindTasklistSpec | tasks2subissues.py:114-116 | the span found is a block with no block starting before it; when none is found, the body holds no block |
| TasklistBlock.LeftmostUnique | tasks2subissues.py:114 | there is only one leftmost block |
| TasklistBlock.ReplaceTasklist | tasks2subissues.py:112-118 | `replace_tasklist_in_issue_body`: a body in which the pattern matches nowhere comes back unchanged; otherwise the result is the text before the leftmost block, the replacement, and the text after that block, untouched |
| TasklistBlock.ReplaceWritten | tasks2subissues.py:112-118 | a tasklist written by the tool, preceded by text without backticks, is exactly what gets replaced |
| Client.ReferenceRequest | tasks2subissues.py:187-203 | a placeholder request is built exactly when the URL parses and the fetched details carry title and state; errors are, in order, the URL error, then the missing `title`, then the missing `state`; the request targets the reference repository and mirrors the state |
| Client.ReferenceRequestFor | tasks2subissues.py:187-201 | for an issue's canonical URL, with or without trailing `/`-segments, the title is `owner/repo#id:title` from the parsed parts and the fetched title, and the body links that title to the URL as given |
| Client.ReferenceTitleInjective | tasks2subissues.py:200 | distinct issues or distinct titles give distinct placeholder titles, when repo names have no `#` and numbers no `:` |
| Client.ReferenceRequestsDistinct | tasks2subissues.py:187-203 | two placeholder requests with the same title come from the same issue and the same original title |
| Client.JoinErrorMessages | tasks2subissues.py:277-285 | the loop with its `first` flag and delayed separator computes the messages joined with a space, a vertical bar and a space |
| Client.MessagesAppend | tasks2subissues.py:280-282 | messages collect error by error |
| Client.MessagesKept | tasks2subissues.py:280-282 | every message an error carries is in the collected list |
| Client.NoMessages | tasks2subissues.py:280-282 | errors without a `message` contribute nothing: when none has one, nothing is collected |
| Client.LinkOutcome | tasks2subissues.py:276-288 | linking succeeds exactly when the answer has no `errors` or an empty list; otherwise the failure is `Unable to link sub-issue:` followed by the present messages joined with a space, a vertical bar and a space; a missing node id is a failure of its own |
| Orchestrator.ConfigureReferenceRepo | tasks2subissues.py:122-133 | no URL configures nothing; a given URL configures the repository it is the canonical URL of, and fails exactly when it does not parse |
| Orchestrator.ClassifyTaskMeaning | tasks2subissues.py:323-336 | a task is plain exactly when not recognised as an issue URL; URL classes carry the text, which parses, with same owner exactly when the parsed owner is the parent's; an error only for untrimmed text |
| Orchestrator.Bucketed | tasks2subissues.py:319-336 | every task is accounted for exactly once across the three buckets and the error count |
| Orchestrator.GatherAppend | tasks2subissues.py:323-336 | bucketing distributes over concatenation, so each bucket keeps task order |
| Orchestrator.Classify | tasks2subissues.py:319-336 | the loop appending to one bucket per task computes the order-preserving buckets |
| Orchestrator.BucketsSound | tasks2subissues.py:319-336 | every same-owner URL parses with the parent's owner, every different-owner URL parses with another owner, every plain task is a task of the list and not an issue URL |
| Orchestrator.BucketsComplete | tasks2subissues.py:319-336 | every task lands in the bucket its class names |
| Orchestrator.TrimmedTasksClassify | tasks2subissues.py:323-336 | trimmed task texts never cause a classification error |
| Orchestrator.PlainTasksStay | tasks2subissues.py:323-333 | a list of tasks none of which is an issue URL is bucketed as plain tasks, in order, with nothing else |
| Orchestrator.NoFailures | tasks2subissues.py:344-365 | a sequence of steps counts no failure exactly when every step succeeded |
| Orchestrator.Failures | tasks2subissues.py:344-365 | failures and successes together account for every step |
| Orchestrator.FailuresCount | tasks2subissues.py:344-365 | the failure count is the number of steps that failed: one for each, none for a success |
| Orchestrator.MakeReference | tasks2subissues.py:344-351 | the `n`-th placeholder is made exactly when its request can be built from that call's fetched details and that call's creation answers a URL, and the result is that URL; otherwise the failure is the request's own error, or `CreateIssueFailed` when creation gave no URL |
| Orchestrator.LinkIssue | tasks2subissues.py:355-365 | the `n`-th link succeeds exactly when the URL parses and that call's mutation answer reports no errors; otherwise the failure is the URL error, or the failure the answer reports |
| Orchestrator.Finalise | tasks2subissues.py:372-397 | the body is rewritten exactly when there were no errors and some link was attempted, and then the block is replaced by the remaining tasks' tasklist, empty when none remain |
| Orchestrator.Process | tasks2subissues.py:342-397 | after classification, a new body exists exactly when the run counted no error and attempted a link, and it is the body with its block replaced by the plain tasks' tasklist |
| Orchestrator.ProcessLinksInOrder | tasks2subissues.py:342-366 | the link attempts are the same-owner URLs in task order followed by exactly the URLs of the placeholders created; all different-owner URLs get linked exactly when every placeholder was created |
| Orchestrator.SuccessesInOrder | tasks2subissues.py:344-351 | the URLs appended after the creation loop are those of the successful creations and no others, each from its own step, in step order |
| Orchestrator.PlaceholdersLinked | tasks2subissues.py:342-358 | after the same-owner URLs, the `k`-th link attempt is the placeholder created for the `idx[k]`-th different-owner URL, with `idx` increasing, and every different-owner URL whose placeholder was created is linked |
| Orchestrator.ProcessErrorFree | tasks2subissues.py:323-372 | a run counts no error exactly when classification counted none, the placeholder for each different-owner URL was created, and each attempted link succeeded |
| Orchestrator.ProcessErrorCount | tasks2subissues.py:323-376 | the reported error count is the classification errors, plus one per different-owner URL whose placeholder could not be created, plus one per failed link attempt |
| Orchestrator.CreateSubIssues | tasks2subissues.py:300-400 | an unparsable parent URL and an unavailable parent are fatal; the missing reference repository is fatal exactly when a different-owner URL exists and none is configured; a finished run rewrites the body exactly when error-free with a link attempt, and the new body is the parent body with its tasklist block replaced by the tasklist of the parent's plain tasks |
| Orchestrator.ParentClassifiesCleanly | tasks2subissues.py:312-336 | classifying the parent's extracted tasks never counts an error |
| Orchestrator.RewriteKeepsPlainTasks | tasks2subissues.py:368-389 | when a body that is the tool's own tasklist gets rewritten, the new body is the tasklist of exactly the plain tasks, in order; they read back as written and are tasks of the original list that are not issue URLs |
| Orchestrator.SecondRunIdle | tasks2subissues.py:300-400 | a second run over the rewritten body finds nothing to link, counts no error and leaves the body alone, whatever the service answers |
| Orchestrator.ClassifyIssueUrl | tasks2subissues.py:326-331 | the canonical URL of an issue is bucketed by whether its owner is the parent's |
| Orchestrator.ClassifyMixed | tasks2subissues.py:319-336 | a same-owner URL, a different-owner URL and a plain task fill one bucket each |
| Orchestrator.ClassificationExample | tasks2subissues.py:319-336 | with parent owner `orgA`, tasks `https://github.com/orgA/r/issues/1`, `https://github.com/orgB/r/issues/2` and `buy milk` fill the same-owner, different-owner and plain buckets with one each |
| Orchestrator.SameOwnerRun | tasks2subissues.py:300-400 | a tasklist holding one linkable same-owner issue and one plain task, with the link succeeding, finishes error-free after one link attempt and rewrites the body to the plain task alone |
| Orchestrator.EndToEndExample | tasks2subissues.py:300-400 | parent `https://github.com/orgA/r/issues/1` with tasks `https://github.com/orgA/r/issues/5` and `write docs`: one link attempt, for issue 5, and the body becomes the tasklist of `write docs` |

## Left out

- The HTTP calls are not modelled: issue creation, the follow-up PATCH closing a placeholder, detail fetching, the node-id lookup, the GraphQL request and the parent body PATCH (lines 150-170, 221-234, 271-275, 390-395). Their answers are the three functions of `Orchestrator.Service`, and `Report.newBody` is the body the PATCH would send.
- The state behind the service is not modelled. Each answer depends only on the call's position in its loop and its request, so nothing ties a placeholder created in one call to what a later link call for it answers.
- The status of the parent body PATCH (lines 392-395) only changes what is printed, so it is not modelled.
- `time.sleep(5)` between links (line 362) is pacing with no effect on results.
- `print`, `exit` and `argparse`/`main` (lines 132-133, 314-317, 336-340, 376-377, 398-415) are not modelled. Process termination is `Run.Aborted`, or a finished report with a nonzero error count and no new body.
- The request headers and token (lines 134-137) are not modelled.
- Orchestrator.CreateSubIssues: several parent failures collapse into one input, `parentBody == None`. These are a failed details fetch, a missing `body`, a `null` body and a failed node-id lookup (lines 310-313), all of which are fatal.
- Orchestrator.MakeReference: a `201` create answer without `html_url` counts here as a failed creation. The script appends `None` to the link list and fails when linking it. The error count is the same but the attempted-link list differs.
- TasklistBlock.ReplaceTasklist: it inserts the replacement literally. Python's `re.sub` expands backslash escapes in the replacement template (line 116), so for plain tasks whose text contains `\` the script writes a different body, or raises on an unknown escape.
- The `None`/non-`str` guard of `is_github_issue_url` (line 20) has no counterpart: task texts are always strings.
- The fixed GraphQL mutation text (lines 244-264) is not modelled.

=== FILE: client.dfy ===
/**
 The pure parts of the GitHub client: the request `create_reference_issue` builds for a
 placeholder issue, and the failure `link_parent_issue_and_sub_issue` reports from a GraphQL
 answer. The remote service itself is not modelled; its answers are inputs.
 */
module Client {
  import opened Wrappers
  import opened Text
  import opened GitHubUrl

  /** The fields of a fetched issue that the client reads; either may be absent from the answer. */
  datatype IssueDetails = IssueDetails(title: Option<string>, state: Option<string>)

  /** An issue-creation request: target owner and repository, title, body text and state to set. */
  datatype IssueRequest = IssueRequest(owner: string, repo: string, title: string, description: string, state: string)

  /** One entry of a GraphQL `errors` array; the `message` key may be missing. */
  datatype GraphQLError = GraphQLError(message: Option<string>)

  /** What linking one sub-issue got back: no node id for it, or a GraphQL answer with or without `errors`. */
  datatype LinkResponse = NodeIdUnavailable | Answered(errors: Option<seq<GraphQLError>>)

  /** Why one per-task step failed. */
  datatype StepError =
    | InvalidUrl(error: UrlError)
    | FetchFailed
    | MissingField(field: string)
    | CreateIssueFailed
    | NodeUnavailable
    | LinkFailed(message: string)

  /** Title of a placeholder issue: `owner/repo#id:title`. */
  function ReferenceTitle(ref: IssueRef, title: string): string {
    ref.owner + "/" + ref.repo + "#" + ref.issueId + ":" + title
  }

  const ReferencePreamble: string := "This issue is a reference/placeholder to: "

  /** Body of a placeholder issue: a markdown link labelled with the title, pointing at the original. */
  function ReferenceDescription(title: string, url: string): string {
    ReferencePreamble + "[" + title + "](" + url + ")"
  }

  /** The title cut at its first `/`, `#` and `:`. */
  lemma ReferenceTitleShape(ref: IssueRef, title: string)
    ensures ReferenceTitle(ref, title) == ref.owner + ['/'] + (ref.repo + ['#'] + (ref.issueId + [':'] + title))
  {
  }

  /** No `#` in the repository name and no `:` in the issue number: the title can be cut apart again. */
  predicate Separable(ref: IssueRef) {
    WellFormedIssueRef(ref) && '#' !in ref.repo && ':' !in ref.issueId
  }

  /** Distinct issues, or distinct titles, give distinct placeholder titles. */
  lemma ReferenceTitleInjective(r1: IssueRef, t1: string, r2: IssueRef, t2: string)
    requires Separable(r1) && Separable(r2)
    requires ReferenceTitle(r1, t1) == ReferenceTitle(r2, t2)
    ensures r1 == r2 && t1 == t2
  {
    ReferenceTitleShape(r1, t1);
    ReferenceTitleShape(r2, t2);
    CutAtFirst(r1.owner, r1.repo + ['#'] + (r1.issueId + [':'] + t1),
               r2.owner, r2.repo + ['#'] + (r2.issueId + [':'] + t2), '/');
    CutAtFirst(r1.repo, r1.issueId + [':'] + t1, r2.repo, r2.issueId + [':'] + t2, '#');
    CutAtFirst(r1.issueId, t1, r2.issueId, t2, ':');
  }

  /**
   `create_reference_issue` up to the creation call: parse the URL (fetching by URL parses it
   first), then require `title` and then `state` in the fetched details. `details` is `None`
   when the fetch itself failed.
   */
  function ReferenceRequest(url: string, details: Option<IssueDetails>, target: RepoRef): (r: Result<IssueRequest, StepError>)
    ensures r.Success? <==>
      SplitGitHubIssueUrl(url).Success? && details.Some? && details.value.title.Some? && details.value.state.Some?
    ensures SplitGitHubIssueUrl(url).Failure? ==> r == Failure(InvalidUrl(SplitGitHubIssueUrl(url).error))
    ensures r.Failure? && SplitGitHubIssueUrl(url).Success? && details.Some? ==>
      r.error == MissingField(if details.value.title.None? then "title" else "state")
    ensures r.Success? ==>
      && r.value.owner == target.owner && r.value.repo == target.repo
      && r.value.state == details.value.state.value
  {
    match SplitGitHubIssueUrl(url)
    case Failure(e) => Failure(InvalidUrl(e))
    case Success(ref) =>
      match details
      case None => Failure(FetchFailed)
      case Some(d) =>
        if d.title.None? then Failure(MissingField("title"))
        else if d.state.None? then Failure(MissingField("state"))
        else
          var title := ReferenceTitle(ref, d.title.value);
          Success(IssueRequest(target.owner, target.repo, title, ReferenceDescription(title, url), d.state.value))
  }

  /**
   The placeholder for an issue's URL, with or without trailing segments, names that issue and
   the original title, and its body links back to the URL as given.
   */
  lemma ReferenceRequestFor(ref: IssueRef, tail: string, title: string, state: string, target: RepoRef)
    requires WellFormedIssueRef(ref)
    requires tail == "" || tail[0] == '/'
    ensures var url := IssueUrl(ref) + tail;
      var r := ReferenceRequest(url, Some(IssueDetails(Some(title), Some(state))), target);
      && r.Success?
      && r.value.title == ReferenceTitle(ref, title)
      && r.value.description == ReferenceDescription(ReferenceTitle(ref, title), url)
  {
    IssueUrlRoundTrip(ref, tail);
  }

  /** Two placeholders with the same title stand for the same issue. */
  lemma ReferenceRequestsDistinct(u1: string, d1: Option<IssueDetails>, u2: string, d2: Option<IssueDetails>, target: RepoRef)
    requires ReferenceRequest(u1, d1, target).Success? && ReferenceRequest(u2, d2, target).Success?
    requires Separable(SplitGitHubIssueUrl(u1).value) && Separable(SplitGitHubIssueUrl(u2).value)
    requires ReferenceRequest(u1, d1, target).value.title == ReferenceRequest(u2, d2, target).value.title
    ensures SplitGitHubIssueUrl(u1) == SplitGitHubIssueUrl(u2)
    ensures d1.value.title == d2.value.title
  {
    ReferenceTitleInjective(SplitGitHubIssueUrl(u1).value, d1.value.title.value,
                            SplitGitHubIssueUrl(u2).value, d2.value.title.value);
  }

  /** The `message` of each error that has one, in order. */
  function Messages(errors: seq<GraphQLError>): (r: seq<string>)
    ensures |r| <= |errors|
  {
    if |errors| == 0 then []
    else (if errors[0].message.Some? then [errors[0].message.value] else []) + Messages(errors[1..])
  }

  lemma {:induction false} MessagesAppend(a: seq<GraphQLError>, b: seq<GraphQLError>)
    ensures Messages(a + b) == Messages(a) + Messages(b)
    decreases |a|
  {
    if |a| == 0 {
      assert a + b == b;
    } else {
      assert (a + b)[0] == a[0];
      assert (a + b)[1..] == a[1..] + b;
      MessagesAppend(a[1..], b);
    }
  }

  const MessageSeparator: string := " | "

  /**
   The loop of `link_parent_issue_and_sub_issue` that collects error messages: the separator is
   empty until the first message has been added. It computes the messages joined with ` | `.
   */
  method JoinErrorMessages(errors: seq<GraphQLError>) returns (text: string)
    ensures text == Join(Messages(errors), MessageSeparator)
  {
    text := "";
    var divider := "";
    var first := true;
    var i := 0;
    while i < |errors|
      invariant 0 <= i <= |errors|
      invariant text == Join(Messages(errors[..i]), MessageSeparator)
      invariant first <==> |Messages(errors[..i])| == 0
      invariant divider == if first then "" else MessageSeparator
    {
      assert errors[..i + 1] == errors[..i] + [errors[i]];
      MessagesAppend(errors[..i], [errors[i]]);
      assert [errors[i]][1..] == [];
      if errors[i].message.Some? {
        var m := errors[i].message.value;
        assert Messages(errors[..i + 1]) == Messages(errors[..i]) + [m];
        if first {
          assert Messages(errors[..i + 1]) == [m];
          assert "" + "" + m == m;
        } else {
          JoinSnoc(Messages(errors[..i]), MessageSeparator, m);
        }
        text := text + divider + m;
        if first {
          divider := MessageSeparator;
          first := false;
        }
        assert text == Join(Messages(errors[..i + 1]), MessageSeparator);
      } else {
        assert Messages([errors[i]]) == [];
        assert Messages(errors[..i + 1]) == Messages(errors[..i]) + [];
        assert Messages(errors[..i]) + [] == Messages(errors[..i]);
      }
      i := i + 1;
    }
    assert errors[..i] == errors;
  }

  const LinkFailurePrefix: string := "Unable to link sub-issue:"

  /**
   The failure linking reports, if any: a missing node id, or a non-empty `errors` array whose
   messages are joined after a fixed prefix. An answer without `errors`, or with an empty one, succeeds.
   */
  function LinkOutcome(resp: LinkResponse): (r: Option<StepError>)
    ensures r.None? <==> resp.Answered? && (resp.errors.None? || |resp.errors.value| == 0)
    ensures resp.NodeIdUnavailable? ==> r == Some(NodeUnavailable)
    ensures r.Some? && resp.Answered? ==>
      r.value.LinkFailed? && StartsWith(r.value.message, LinkFailurePrefix)
    ensures r.Some? && resp.Answered? ==>
      r.value == LinkFailed(LinkFailurePrefix + Join(Messages(resp.errors.value), MessageSeparator))
  {
    match resp
    case NodeIdUnavailable => Some(NodeUnavailable)
    case Answered(None) => None
    case Answered(Some(errors)) =>
      if |errors| == 0 then None
      else
        var m := LinkFailurePrefix + Join(Messages(errors), MessageSeparator);
        assert m[..|LinkFailurePrefix|] == LinkFailurePrefix;
        Some(LinkFailed(m))
  }

  /** Every message an error carries is among the collected messages. */
  lemma {:induction false} MessagesKept(errors: seq<GraphQLError>, i: nat)
    requires i < |errors|
    ensures errors[i].message.Some? ==> errors[i].message.value in Messages(errors)
    decreases |errors|
  {
    if i > 0 {
      MessagesKept(errors[1..], i - 1);
      assert errors[1..][i - 1] == errors[i];
    }
  }

  /** Errors without a message add nothing: when none has one, there is nothing to join. */
  lemma {:induction false} NoMessages(errors: seq<GraphQLError>)
    requires forall k :: 0 <= k < |errors| ==> errors[k].message.None?
    ensures Messages(errors) == []
    decreases |errors|
  {
    if |errors| > 0 {
      assert forall k :: 0 <= k < |errors| - 1 ==> errors[1..][k] == errors[k + 1];
      NoMessages(errors[1..]);
    }
  }
}

=== FILE: github_url.dfy ===
/**
 Recognising and decomposing GitHub web URLs of issues
 (`https://github.com/<owner>/<repo>/issues/<id>`) and of repositories
 (`https://github.com/<owner>/<repo>`). Python's `ValueError` becomes a `Failure`.
 */
module GitHubUrl {
  import opened Wrappers
  import opened Text

  const BaseUrl: string := "https://github.com/"

  /** An issue as named by its URL; `issueId` is the raw path segment, never checked to be a number. */
  datatype IssueRef = IssueRef(owner: string, repo: string, issueId: string)

  datatype RepoRef = RepoRef(owner: string, repo: string)

  /** `MissingBaseUrl` is the "must start with https://github.com/" error; the others carry the path after the base. */
  datatype UrlError = MissingBaseUrl | InvalidIssueUrl(path: string) | InvalidRepoUrl(path: string)

  predicate NoSlash(s: string) {
    '/' !in s
  }

  /** Every component is a single path segment. */
  predicate WellFormedIssueRef(ref: IssueRef) {
    NoSlash(ref.owner) && NoSlash(ref.repo) && NoSlash(ref.issueId)
  }

  predicate WellFormedRepoRef(ref: RepoRef) {
    NoSlash(ref.owner) && NoSlash(ref.repo)
  }

  /** The canonical URL of an issue. */
  function IssueUrl(ref: IssueRef): string {
    BaseUrl + ref.owner + "/" + ref.repo + "/issues/" + ref.issueId
  }

  /** The canonical URL of a repository. */
  function RepoUrl(ref: RepoRef): string {
    BaseUrl + ref.owner + "/" + ref.repo
  }

  /** `url` is the canonical URL of `ref`, possibly followed by further `/`-separated segments. */
  predicate ExtendsIssueUrl(url: string, ref: IssueRef) {
    var u := IssueUrl(ref);
    StartsWith(url, u) && (|url| == |u| || url[|u|] == '/')
  }

  /** The shape test shared by both issue-URL functions: at least four segments, the third being `issues`. */
  predicate IsIssuePath(parts: seq<string>) {
    |parts| >= 4 && parts[2] == "issues"
  }

  /** `split_github_issue_url`: no whitespace is stripped; extra trailing segments are accepted. */
  function SplitGitHubIssueUrl(url: string): (r: Result<IssueRef, UrlError>)
    ensures r.Success? ==> WellFormedIssueRef(r.value) && ExtendsIssueUrl(url, r.value)
    ensures r.Failure? ==> (r.error == MissingBaseUrl <==> !StartsWith(url, BaseUrl))
    ensures r.Failure? && StartsWith(url, BaseUrl) ==> r.error == InvalidIssueUrl(url[|BaseUrl|..])
  {
    if !StartsWith(url, BaseUrl) then Failure(MissingBaseUrl)
    else
      var path := url[|BaseUrl|..];
      var parts := Split(path, '/');
      if IsIssuePath(parts) then
        var ref := IssueRef(parts[0], parts[1], parts[3]);
        assert "/" == ['/'];
        IssuePathExtends(url, parts, ref);
        Success(ref)
      else
        Failure(InvalidIssueUrl(path))
  }

  lemma IssuePathExtends(url: string, parts: seq<string>, ref: IssueRef)
    requires StartsWith(url, BaseUrl)
    requires Join(parts, "/") == url[|BaseUrl|..] && IsIssuePath(parts)
    requires ref == IssueRef(parts[0], parts[1], parts[3])
    ensures ExtendsIssueUrl(url, ref)
  {
    var path := url[|BaseUrl|..];
    var tail := IssuePathShape(path, parts);
    assert url == IssueUrl(ref) + tail by {
      assert url == BaseUrl + path;
    }
    ExtendsWithTail(ref, tail);
  }

  lemma ExtendsWithTail(ref: IssueRef, tail: string)
    requires tail == "" || tail[0] == '/'
    ensures ExtendsIssueUrl(IssueUrl(ref) + tail, ref)
  {
    var u := IssueUrl(ref);
    assert (u + tail)[..|u|] == u;
  }

  /** An issue path is its first four segments, then nothing or a `/` and the rest. */
  lemma IssuePathShape(path: string, parts: seq<string>) returns (tail: string)
    requires Join(parts, "/") == path && IsIssuePath(parts)
    ensures tail == "" || tail[0] == '/'
    ensures path == parts[0] + "/" + parts[1] + "/issues/" + parts[3] + tail
  {
    tail := if |parts| == 4 then "" else "/" + Join(parts[4..], "/");
    assert parts[1..][1..] == parts[2..];
    assert parts[2..][1..] == parts[3..];
    assert parts[3..][1..] == parts[4..];
    var rest3 := Join(parts[3..], "/");
    if |parts| > 4 {
      JoinCons(parts[3..], "/");
    }
    assert rest3 == parts[3] + tail;
    JoinCons(parts[2..], "/");
    JoinCons(parts[1..], "/");
    JoinCons(parts, "/");
    assert path == parts[0] + "/" + (parts[1] + "/" + ("issues" + "/" + (parts[3] + tail)));
  }

  /** The parser recovers every well-formed issue from its URL, whatever segments follow. */
  lemma IssueUrlRoundTrip(ref: IssueRef, tail: string)
    requires WellFormedIssueRef(ref)
    requires tail == "" || tail[0] == '/'
    ensures SplitGitHubIssueUrl(IssueUrl(ref) + tail) == Success(ref)
  {
    var url := IssueUrl(ref) + tail;
    var path := ref.owner + "/" + (ref.repo + "/" + ("issues" + "/" + (ref.issueId + tail)));
    assert StartsWith(url, BaseUrl) && url[|BaseUrl|..] == path by {
      assert url == BaseUrl + path;
    }
    SplitIssuePath(ref, tail);
    var parts := Split(path, '/');
    assert IsIssuePath(parts) && IssueRef(parts[0], parts[1], parts[3]) == ref;
  }

  lemma SplitIssuePath(ref: IssueRef, tail: string)
    requires WellFormedIssueRef(ref)
    requires tail == "" || tail[0] == '/'
    ensures var parts := Split(ref.owner + "/" + (ref.repo + "/" + ("issues" + "/" + (ref.issueId + tail))), '/');
            IsIssuePath(parts) && parts[0] == ref.owner && parts[1] == ref.repo && parts[3] == ref.issueId
  {
    assert "/" == ['/'];
    SplitCons(ref.owner, '/', ref.repo + "/" + ("issues" + "/" + (ref.issueId + tail)));
    SplitCons(ref.repo, '/', "issues" + "/" + (ref.issueId + tail));
    SplitCons("issues", '/', ref.issueId + tail);
    if tail == "" {
      assert ref.issueId + tail == ref.issueId;
      SplitNoSeparator(ref.issueId, '/');
    } else {
      assert ref.issueId + tail == ref.issueId + "/" + tail[1..];
      SplitCons(ref.issueId, '/', tail[1..]);
    }
  }

  /** `is_github_issue_url`: strips whitespace first, then applies the same test as the parser. */
  function IsGitHubIssueUrl(url: string): (r: bool)
    ensures r <==> SplitGitHubIssueUrl(Strip(url)).Success?
  {
    var u := Strip(url);
    StartsWith(u, BaseUrl) && IsIssuePath(Split(u[|BaseUrl|..], '/'))
  }

  /** On text without surrounding whitespace the recogniser and the parser agree. */
  lemma RecognisedIffParsed(url: string)
    requires Trimmed(url)
    ensures IsGitHubIssueUrl(url) <==> SplitGitHubIssueUrl(url).Success?
  {
    StripTrimmed(url);
  }

  /** `split_github_repo_url`: exactly two segments after the base, so a trailing slash is rejected. */
  function SplitGitHubRepoUrl(url: string): (r: Result<RepoRef, UrlError>)
    ensures r.Success? ==> WellFormedRepoRef(r.value) && url == RepoUrl(r.value)
    ensures r.Failure? ==> (r.error == MissingBaseUrl <==> !StartsWith(url, BaseUrl))
    ensures r.Failure? && StartsWith(url, BaseUrl) ==> r.error == InvalidRepoUrl(url[|BaseUrl|..])
  {
    if !StartsWith(url, BaseUrl) then Failure(MissingBaseUrl)
    else
      var path := url[|BaseUrl|..];
      var parts := Split(path, '/');
      if |parts| == 2 then
        assert url == RepoUrl(RepoRef(parts[0], parts[1])) by {
          RepoPathShape(path, parts);
          assert url == BaseUrl + path;
        }
        Success(RepoRef(parts[0], parts[1]))
      else
        Failure(InvalidRepoUrl(path))
  }

  lemma RepoPathShape(path: string, parts: seq<string>)
    requires parts == Split(path, '/') && |parts| == 2
    ensures path == parts[0] + "/" + parts[1]
  {
    assert parts[1..] == [parts[1]];
    assert "/" == ['/'];
    assert Join(parts, "/") == path;
  }

  /** The repository parser inverts `RepoUrl` on well-formed references. */
  lemma RepoUrlRoundTrip(ref: RepoRef)
    requires WellFormedRepoRef(ref)
    ensures SplitGitHubRepoUrl(RepoUrl(ref)) == Success(ref)
  {
    var url := RepoUrl(ref);
    assert url == BaseUrl + (ref.owner + "/" + ref.repo);
    assert url[|BaseUrl|..] == ref.owner + "/" + ref.repo;
    SplitCons(ref.owner, '/', ref.repo);
    SplitNoSeparator(ref.repo, '/');
  }
}

=== FILE: orchestrator.dfy ===
/**
 `Tasks2Subissues.__init__` and `create_sub_issues` with the remote service abstracted away:
 the service's answers are functions of the call (its position in its loop, and its request),
 so one run is a pure function of the parent URL, the parent body, the configured reference
 repository and those answers.
 */
module Orchestrator {
  import opened Wrappers
  import opened Text
  import opened GitHubUrl
  import opened Tasklist
  import opened TasklistBlock
  import opened Client
  import opened Subsequence

  /** `__init__`: an optional reference repository URL must parse, otherwise the tool stops. */
  function ConfigureReferenceRepo(refRepoUrl: Option<string>): (r: Result<Option<RepoRef>, UrlError>)
    ensures refRepoUrl.None? ==> r == Success(None)
    ensures refRepoUrl.Some? && r.Success? ==> r.value.Some? && refRepoUrl.value == RepoUrl(r.value.value)
    ensures refRepoUrl.Some? ==> (r.Failure? <==> SplitGitHubRepoUrl(refRepoUrl.value).Failure?)
  {
    match refRepoUrl
    case None => Success(None)
    case Some(u) =>
      match SplitGitHubRepoUrl(u)
      case Success(repo) => Success(Some(repo))
      case Failure(e) => Failure(e)
  }

  /** Where one task goes: a URL under the parent's owner, one under another owner, plain text, or a parse error. */
  datatype Class = SameOwner(url: string) | DifferentOwner(url: string) | NonIssue(task: Task) | Unclassifiable

  /**
   One step of the classification loop. A text the recogniser accepts is parsed without
   stripping, so a recognised text with surrounding whitespace fails to parse and is counted as an error.
   */
  function ClassifyTask(parentOwner: string, t: Task): Class {
    if IsGitHubIssueUrl(t.text) then
      match SplitGitHubIssueUrl(t.text)
      case Success(ref) =>
        if ref.owner == parentOwner then SameOwner(t.text) else DifferentOwner(t.text)
      case Failure(_) => Unclassifiable
    else NonIssue(t)
  }

  /**
   What a task's class means: plain exactly when not recognised as an issue URL, a URL bucket
   only for text that parses, split by owner, and a parse error only for untrimmed text.
   */
  lemma ClassifyTaskMeaning(parentOwner: string, t: Task)
    ensures var c := ClassifyTask(parentOwner, t);
      && (c.NonIssue? <==> !IsGitHubIssueUrl(t.text))
      && (c.NonIssue? ==> c.task == t)
      && (c.Unclassifiable? ==> !Trimmed(t.text))
      && (c.SameOwner? || c.DifferentOwner? ==>
            && c.url == t.text
            && SplitGitHubIssueUrl(t.text).Success?
            && (c.SameOwner? <==> SplitGitHubIssueUrl(t.text).value.owner == parentOwner))
  {
    if Trimmed(t.text) {
      RecognisedIffParsed(t.text);
    }
  }

  /** The three ordered buckets and the number of tasks that could not be classified. */
  datatype Buckets = Buckets(same: seq<string>, different: seq<string>, nonIssue: seq<Task>, errors: nat)

  const NoBuckets := Buckets([], [], [], 0)

  /** Buckets of `a` followed by those of `b`. */
  function Combine(a: Buckets, b: Buckets): Buckets {
    Buckets(a.same + b.same, a.different + b.different, a.nonIssue + b.nonIssue, a.errors + b.errors)
  }

  function Single(c: Class): Buckets {
    match c
    case SameOwner(u) => Buckets([u], [], [], 0)
    case DifferentOwner(u) => Buckets([], [u], [], 0)
    case NonIssue(t) => Buckets([], [], [t], 0)
    case Unclassifiable => Buckets([], [], [], 1)
  }

  /** How many tasks the buckets account for. */
  function Size(b: Buckets): nat {
    |b.same| + |b.different| + |b.nonIssue| + b.errors
  }

  /** The class of each task, in task order. */
  function Classes(parentOwner: string, tasks: seq<Task>): (cs: seq<Class>)
    ensures |cs| == |tasks|
  {
    MapTasks(Classifier(parentOwner), tasks)
  }

  function Classifier(parentOwner: string): Task -> Class {
    t => ClassifyTask(parentOwner, t)
  }

  /** `f` applied to each task, in order. */
  function MapTasks(f: Task -> Class, tasks: seq<Task>): (cs: seq<Class>)
    ensures |cs| == |tasks|
  {
    seq(|tasks|, i requires 0 <= i < |tasks| => f(tasks[i]))
  }

  /** The buckets a sequence of classes fills, each bucket in sequence order. */
  function Gather(cs: seq<Class>): (b: Buckets)
    ensures Size(b) == |cs|
  {
    if |cs| == 0 then NoBuckets else Combine(Single(cs[0]), Gather(cs[1..]))
  }

  /** The buckets of a task list, as a definition: each task's class, in task order. */
  function Bucketed(parentOwner: string, tasks: seq<Task>): (b: Buckets)
    ensures Size(b) == |tasks|
  {
    Gather(Classes(parentOwner, tasks))
  }

  /** Gathering distributes over concatenation, so every bucket keeps sequence order. */
  lemma {:induction false} GatherAppend(a: seq<Class>, b: seq<Class>)
    ensures Gather(a + b) == Combine(Gather(a), Gather(b))
    decreases |a|
  {
    if |a| == 0 {
      assert a + b == b;
    } else {
      assert (a + b)[1..] == a[1..] + b;
      GatherAppend(a[1..], b);
      CombineAssoc(Single(a[0]), Gather(a[1..]), Gather(b));
    }
  }

  /** One iteration of the classification loop: append to the bucket the class names, or count an error. */
  function Add(b: Buckets, c: Class): Buckets {
    match c
    case SameOwner(u) => b.(same := b.same + [u])
    case DifferentOwner(u) => b.(different := b.different + [u])
    case NonIssue(t) => b.(nonIssue := b.nonIssue + [t])
    case Unclassifiable => b.(errors := b.errors + 1)
  }

  lemma AddIsCombine(b: Buckets, c: Class)
    ensures Add(b, c) == Combine(b, Single(c))
  {
    assert b.same + [] == b.same;
    assert b.different + [] == b.different;
    assert b.nonIssue + [] == b.nonIssue;
  }

  /** The buckets of one more class: those of the prefix, then that class's. */
  lemma GatherStep(cs: seq<Class>, i: nat)
    requires i < |cs|
    ensures Gather(cs[..i + 1]) == Combine(Gather(cs[..i]), Single(cs[i]))
  {
    assert cs[..i + 1] == cs[..i] + [cs[i]];
    GatherAppend(cs[..i], [cs[i]]);
    assert [cs[i]][1..] == [];
    CombineEmpty(Single(cs[i]));
  }

  lemma CombineAssoc(x: Buckets, y: Buckets, z: Buckets)
    ensures Combine(x, Combine(y, z)) == Combine(Combine(x, y), z)
  {
    assert x.same + (y.same + z.same) == (x.same + y.same) + z.same;
    assert x.different + (y.different + z.different) == (x.different + y.different) + z.different;
    assert x.nonIssue + (y.nonIssue + z.nonIssue) == (x.nonIssue + y.nonIssue) + z.nonIssue;
  }

  lemma CombineEmpty(x: Buckets)
    ensures Combine(x, NoBuckets) == x
  {
    assert x.same + [] == x.same;
    assert x.different + [] == x.different;
    assert x.nonIssue + [] == x.nonIssue;
  }

  /** The classification loop of `create_sub_issues`, appending to one bucket per task. */
  method Classify(parentOwner: string, tasks: seq<Task>) returns (b: Buckets)
    ensures b == Bucketed(parentOwner, tasks)
  {
    b := NoBuckets;
    var i := 0;
    while i < |tasks|
      invariant 0 <= i <= |tasks|
      invariant b == Gather(Classes(parentOwner, tasks)[..i])
    {
      ClassifyStep(parentOwner, tasks, i, b);
      b := Add(b, ClassifyTask(parentOwner, tasks[i]));
      i := i + 1;
    }
    AllClasses(Classes(parentOwner, tasks));
  }

  /** One more iteration fills the buckets of one more task. */
  lemma ClassifyStep(parentOwner: string, tasks: seq<Task>, i: nat, b: Buckets)
    requires i < |tasks| && b == Gather(Classes(parentOwner, tasks)[..i])
    ensures Add(b, ClassifyTask(parentOwner, tasks[i])) == Gather(Classes(parentOwner, tasks)[..i + 1])
  {
    var cs := Classes(parentOwner, tasks);
    assert cs[i] == ClassifyTask(parentOwner, tasks[i]);
    AddIsCombine(b, cs[i]);
    GatherStep(cs, i);
  }

  lemma AllClasses(cs: seq<Class>)
    ensures cs[..|cs|] == cs
  {
  }

  /** Each class in the sequence reaches its bucket. */
  lemma {:induction false} GatherComplete(cs: seq<Class>, i: nat)
    requires i < |cs|
    ensures var b := Gather(cs);
      && (cs[i].SameOwner? ==> cs[i].url in b.same)
      && (cs[i].DifferentOwner? ==> cs[i].url in b.different)
      && (cs[i].NonIssue? ==> cs[i].task in b.nonIssue)
    decreases |cs|
  {
    if i > 0 {
      GatherComplete(cs[1..], i - 1);
      assert cs[1..][i - 1] == cs[i];
    }
  }

  /** Without unclassifiable entries nothing is counted as an error. */
  lemma {:induction false} GatherNoErrors(cs: seq<Class>)
    requires forall i :: 0 <= i < |cs| ==> !cs[i].Unclassifiable?
    ensures Gather(cs).errors == 0
    decreases |cs|
  {
    if |cs| > 0 {
      GatherNoErrors(cs[1..]);
    }
  }

  /** What a class says about its entry: a URL under, or not under, the parent's owner, or a plain task of the list. */
  predicate Placed(parentOwner: string, tasks: seq<Task>, c: Class) {
    match c
    case SameOwner(u) => SplitGitHubIssueUrl(u).Success? && SplitGitHubIssueUrl(u).value.owner == parentOwner
    case DifferentOwner(u) => SplitGitHubIssueUrl(u).Success? && SplitGitHubIssueUrl(u).value.owner != parentOwner
    case NonIssue(t) => t in tasks && !IsGitHubIssueUrl(t.text)
    case Unclassifiable => true
  }

  /** Whatever holds of every class holds of the class behind every bucket entry. */
  lemma {:induction false} GatherHolds(cs: seq<Class>, P: Class -> bool)
    requires forall i :: 0 <= i < |cs| ==> P(cs[i])
    ensures var b := Gather(cs);
      && (forall u :: u in b.same ==> P(SameOwner(u)))
      && (forall u :: u in b.different ==> P(DifferentOwner(u)))
      && (forall t :: t in b.nonIssue ==> P(NonIssue(t)))
    decreases |cs|
  {
    if |cs| > 0 {
      assert forall i :: 0 <= i < |cs| - 1 ==> cs[1..][i] == cs[i + 1];
      GatherHolds(cs[1..], P);
    }
  }

  /** Every task's class is accurate. */
  lemma ClassesPlaced(parentOwner: string, tasks: seq<Task>)
    ensures forall i :: 0 <= i < |tasks| ==> Placed(parentOwner, tasks, Classes(parentOwner, tasks)[i])
  {
    forall i | 0 <= i < |tasks|
      ensures Placed(parentOwner, tasks, Classes(parentOwner, tasks)[i])
    {
      var c := ClassifyTask(parentOwner, tasks[i]);
      assert Classes(parentOwner, tasks)[i] == c;
      ClassifyTaskMeaning(parentOwner, tasks[i]);
    }
  }

  /** Every URL in a bucket parses, under the parent's owner or under another; plain tasks are tasks of the list. */
  lemma BucketsSound(parentOwner: string, tasks: seq<Task>)
    ensures forall u :: u in Bucketed(parentOwner, tasks).same ==>
      SplitGitHubIssueUrl(u).Success? && SplitGitHubIssueUrl(u).value.owner == parentOwner
    ensures forall u :: u in Bucketed(parentOwner, tasks).different ==>
      SplitGitHubIssueUrl(u).Success? && SplitGitHubIssueUrl(u).value.owner != parentOwner
    ensures forall t :: t in Bucketed(parentOwner, tasks).nonIssue ==> t in tasks && !IsGitHubIssueUrl(t.text)
  {
    var b := Bucketed(parentOwner, tasks);
    ClassesPlaced(parentOwner, tasks);
    GatherHolds(Classes(parentOwner, tasks), c => Placed(parentOwner, tasks, c));
    forall u | u in b.same
      ensures SplitGitHubIssueUrl(u).Success? && SplitGitHubIssueUrl(u).value.owner == parentOwner
    {
      assert Placed(parentOwner, tasks, SameOwner(u));
    }
    forall u | u in b.different
      ensures SplitGitHubIssueUrl(u).Success? && SplitGitHubIssueUrl(u).value.owner != parentOwner
    {
      assert Placed(parentOwner, tasks, DifferentOwner(u));
    }
    forall t | t in b.nonIssue
      ensures t in tasks && !IsGitHubIssueUrl(t.text)
    {
      assert Placed(parentOwner, tasks, NonIssue(t));
    }
  }

  /** Every task is accounted for: a parsed URL in one of the URL buckets, anything unrecognised as a plain task. */
  lemma BucketsComplete(parentOwner: string, tasks: seq<Task>, i: nat)
    requires i < |tasks|
    ensures var b := Bucketed(parentOwner, tasks);
      && (!IsGitHubIssueUrl(tasks[i].text) ==> tasks[i] in b.nonIssue)
      && (IsGitHubIssueUrl(tasks[i].text) && SplitGitHubIssueUrl(tasks[i].text).Success? ==>
            tasks[i].text in b.same + b.different)
  {
    var cs := Classes(parentOwner, tasks);
    assert cs[i] == ClassifyTask(parentOwner, tasks[i]);
    ClassifyTaskMeaning(parentOwner, tasks[i]);
    GatherComplete(cs, i);
  }

  /** Texts read from a body are trimmed, so classifying extracted tasks never fails. */
  lemma TrimmedTasksClassify(parentOwner: string, tasks: seq<Task>)
    requires TrimmedTexts(tasks)
    ensures Bucketed(parentOwner, tasks).errors == 0
  {
    var cs := Classes(parentOwner, tasks);
    forall i | 0 <= i < |cs|
      ensures !cs[i].Unclassifiable?
    {
      assert cs[i] == ClassifyTask(parentOwner, tasks[i]);
      ClassifyTaskMeaning(parentOwner, tasks[i]);
    }
    GatherNoErrors(cs);
  }

  /** Classes that are all plain tasks fill only the plain-task bucket, in order. */
  lemma {:induction false} GatherPlain(cs: seq<Class>, tasks: seq<Task>)
    requires |cs| == |tasks|
    requires forall i :: 0 <= i < |cs| ==> cs[i] == NonIssue(tasks[i])
    ensures Gather(cs) == Buckets([], [], tasks, 0)
    decreases |cs|
  {
    if |cs| > 0 {
      assert forall i :: 0 <= i < |cs| - 1 ==> cs[1..][i] == cs[i + 1];
      GatherPlain(cs[1..], tasks[1..]);
      assert [tasks[0]] + tasks[1..] == tasks;
    }
  }

  /** A task list of plain tasks is left as it is: nothing to link, nothing to count. */
  lemma PlainTasksStay(parentOwner: string, tasks: seq<Task>)
    requires forall i :: 0 <= i < |tasks| ==> !IsGitHubIssueUrl(tasks[i].text)
    ensures Bucketed(parentOwner, tasks) == Buckets([], [], tasks, 0)
  {
    var cs := Classes(parentOwner, tasks);
    forall i | 0 <= i < |cs|
      ensures cs[i] == NonIssue(tasks[i])
    {
      ClassifyTaskMeaning(parentOwner, tasks[i]);
    }
    GatherPlain(cs, tasks);
  }

  /** Urls that succeeded, in order. */
  function Successes(rs: seq<Result<string, StepError>>): (r: seq<string>)
    ensures |r| <= |rs|
  {
    if |rs| == 0 then []
    else (if rs[0].Success? then [rs[0].value] else []) + Successes(rs[1..])
  }

  /** How many steps failed. */
  function Failures(rs: seq<Result<string, StepError>>): (n: nat)
    ensures n + |Successes(rs)| == |rs|
  {
    if |rs| == 0 then 0
    else (if rs[0].Failure? then 1 else 0) + Failures(rs[1..])
  }

  lemma {:induction false} FailuresAppend(a: seq<Result<string, StepError>>, b: seq<Result<string, StepError>>)
    ensures Failures(a + b) == Failures(a) + Failures(b)
    decreases |a|
  {
    if |a| == 0 {
      assert a + b == b;
    } else {
      assert (a + b)[0] == a[0];
      assert (a + b)[1..] == a[1..] + b;
      FailuresAppend(a[1..], b);
    }
  }

  /** The positions below `n` whose step failed. */
  function FailedBelow(rs: seq<Result<string, StepError>>, n: nat): set<nat>
    requires n <= |rs|
  {
    set i: nat | i < n && rs[i].Failure?
  }

  lemma {:induction false} FailuresUpTo(rs: seq<Result<string, StepError>>, n: nat)
    requires n <= |rs|
    ensures Failures(rs[..n]) == |FailedBelow(rs, n)|
    decreases n
  {
    if n == 0 {
      assert FailedBelow(rs, 0) == {};
    } else {
      FailuresUpTo(rs, n - 1);
      FailuresStep(rs, n);
      FailedBelowStep(rs, n);
    }
  }

  lemma FailuresStep(rs: seq<Result<string, StepError>>, n: nat)
    requires 0 < n <= |rs|
    ensures Failures(rs[..n]) == Failures(rs[..n - 1]) + if rs[n - 1].Failure? then 1 else 0
  {
    assert rs[..n] == rs[..n - 1] + [rs[n - 1]];
    FailuresAppend(rs[..n - 1], [rs[n - 1]]);
    assert [rs[n - 1]][1..] == [];
  }

  lemma FailedBelowStep(rs: seq<Result<string, StepError>>, n: nat)
    requires 0 < n <= |rs|
    ensures |FailedBelow(rs, n)| == |FailedBelow(rs, n - 1)| + if rs[n - 1].Failure? then 1 else 0
  {
    var below, last := FailedBelow(rs, n - 1), if rs[n - 1].Failure? then {n - 1} else {};
    assert FailedBelow(rs, n) == below + last by {
      forall i | i in FailedBelow(rs, n) ensures i in below + last {
        if i < n - 1 {
          assert i in below;
        }
      }
    }
    assert below * last == {};
  }

  /** `Failures` counts the failed steps: one for each, and nothing for a success. */
  lemma FailuresCount(rs: seq<Result<string, StepError>>)
    ensures Failures(rs) == |set i: nat | i < |rs| && rs[i].Failure?|
  {
    FailuresUpTo(rs, |rs|);
    assert rs[..|rs|] == rs;
  }

  predicate AllSucceed(rs: seq<Result<string, StepError>>) {
    forall i :: 0 <= i < |rs| ==> rs[i].Success?
  }

  /** No step failed exactly when every step succeeded. */
  lemma {:induction false} NoFailures(rs: seq<Result<string, StepError>>)
    ensures Failures(rs) == 0 <==> AllSucceed(rs)
    decreases |rs|
  {
    if |rs| > 0 {
      NoFailures(rs[1..]);
      assert forall i :: 1 <= i < |rs| ==> rs[1..][i - 1] == rs[i];
    }
  }

  /** The created URL of each step that succeeded, position by position. */
  function Created(rs: seq<Result<string, StepError>>): (r: seq<Option<string>>)
    ensures |r| == |rs|
  {
    seq(|rs|, i requires 0 <= i < |rs| => if rs[i].Success? then Some(rs[i].value) else None)
  }

  lemma {:induction false} SuccessesPresent(rs: seq<Result<string, StepError>>)
    ensures Successes(rs) == Present(Created(rs))
    decreases |rs|
  {
    if |rs| > 0 {
      SuccessesPresent(rs[1..]);
      assert Created(rs[1..]) == Created(rs)[1..];
    }
  }

  /**
   `Successes` keeps the value of every successful step and nothing else, in step order: `idx`
   lists, increasing, the step each kept URL comes from, and covers every step that succeeded.
   */
  lemma SuccessesInOrder(rs: seq<Result<string, StepError>>) returns (idx: seq<nat>)
    ensures |idx| == |Successes(rs)|
    ensures forall k :: 0 <= k < |idx| ==> idx[k] < |rs| && rs[idx[k]] == Success(Successes(rs)[k])
    ensures Increasing(idx)
    ensures forall i :: 0 <= i < |rs| && rs[i].Success? ==> i in idx
  {
    SuccessesPresent(rs);
    idx := PresentInOrder(Created(rs));
    assert forall i :: 0 <= i < |rs| ==> Created(rs)[i].Some? == rs[i].Success?;
  }

  /**
   The remote service's answers: issue details, the URL of a created issue, and the answer to a
   link mutation. Each call also gets its position `n` in the loop that makes it (the `n`-th
   different-owner URL, the `n`-th link attempt), so two identical calls may be answered
   differently, as a live service may answer them: every creation makes a new issue.
   */
  datatype Service = Service(
    fetch: (nat, string) -> Option<IssueDetails>,
    create: (nat, IssueRequest) -> Option<string>,
    link: (nat, string) -> LinkResponse)

  /** `create_reference_issue` for the `n`-th different-owner URL: the new issue's URL, or why it failed. */
  function MakeReference(n: nat, url: string, target: RepoRef, service: Service): (r: Result<string, StepError>)
    ensures r.Success? <==>
      ReferenceRequest(url, service.fetch(n, url), target).Success?
      && service.create(n, ReferenceRequest(url, service.fetch(n, url), target).value).Some?
    ensures r.Success? ==>
      service.create(n, ReferenceRequest(url, service.fetch(n, url), target).value) == Some(r.value)
    ensures ReferenceRequest(url, service.fetch(n, url), target).Failure? ==>
      r == Failure(ReferenceRequest(url, service.fetch(n, url), target).error)
    ensures ReferenceRequest(url, service.fetch(n, url), target).Success? && r.Failure? ==>
      r.error == CreateIssueFailed
  {
    match ReferenceRequest(url, service.fetch(n, url), target)
    case Failure(e) => Failure(e)
    case Success(req) =>
      match service.create(n, req)
      case None => Failure(CreateIssueFailed)
      case Some(u) => Success(u)
  }

  /** The `n`-th link: the node id is looked up by URL (which parses it), then the mutation is sent. */
  function LinkIssue(n: nat, url: string, service: Service): (r: Result<string, StepError>)
    ensures r.Success? <==> SplitGitHubIssueUrl(url).Success? && LinkOutcome(service.link(n, url)).None?
    ensures r.Success? ==> r.value == url
    ensures SplitGitHubIssueUrl(url).Failure? ==> r == Failure(InvalidUrl(SplitGitHubIssueUrl(url).error))
    ensures SplitGitHubIssueUrl(url).Success? && r.Failure? ==> Some(r.error) == LinkOutcome(service.link(n, url))
  {
    match SplitGitHubIssueUrl(url)
    case Failure(e) => Failure(InvalidUrl(e))
    case Success(_) =>
      match LinkOutcome(service.link(n, url))
      case Some(f) => Failure(f)
      case None => Success(url)
  }

  function MakeReferences(urls: seq<string>, target: RepoRef, service: Service): (rs: seq<Result<string, StepError>>)
    ensures |rs| == |urls|
  {
    seq(|urls|, i requires 0 <= i < |urls| => MakeReference(i, urls[i], target, service))
  }

  function LinkIssues(urls: seq<string>, service: Service): (rs: seq<Result<string, StepError>>)
    ensures |rs| == |urls|
  {
    seq(|urls|, i requires 0 <= i < |urls| => LinkIssue(i, urls[i], service))
  }

  /** Reasons the whole run stops before any per-task work. */
  datatype Fatal = InvalidParentUrl(error: UrlError) | ParentUnavailable | MissingReferenceRepo(count: nat)

  /**
   What a completed run did: how many per-task errors it counted, which URLs it tried to link
   (in order), and the parent body it wrote back, if any.
   */
  datatype Report = Report(errorCount: nat, linkAttempts: seq<string>, newBody: Option<string>)

  datatype Run = Aborted(reason: Fatal) | Finished(report: Report)

  /** What replaces the tasklist block: the remaining plain tasks re-serialised, or nothing. */
  function Remaining(nonIssue: seq<Task>): (r: string)
    ensures r == CreateTasklistBody(nonIssue)
  {
    if |nonIssue| > 0 then CreateTasklistBody(nonIssue) else ""
  }

  /** The final step: rewrite the parent body only with no errors and at least one link attempt. */
  function Finalise(body: string, errorCount: nat, linkAttempts: seq<string>, nonIssue: seq<Task>): (r: Report)
    ensures r.errorCount == errorCount && r.linkAttempts == linkAttempts
    ensures r.newBody.Some? <==> errorCount == 0 && |linkAttempts| > 0
    ensures r.newBody.Some? ==> r.newBody.value == ReplaceTasklist(body, CreateTasklistBody(nonIssue))
  {
    if errorCount > 0 then Report(errorCount, linkAttempts, None)
    else if |linkAttempts| > 0 then Report(errorCount, linkAttempts, Some(ReplaceTasklist(body, Remaining(nonIssue))))
    else Report(errorCount, linkAttempts, None)
  }

  /** A reference repository is needed exactly when some URL is under another owner. */
  predicate NeedsReferenceRepo(b: Buckets, refRepo: Option<RepoRef>) {
    |b.different| > 0 && refRepo.None?
  }

  /** The placeholder creations a run performs; none when every URL is under the parent's owner. */
  function References(b: Buckets, refRepo: Option<RepoRef>, service: Service): (rs: seq<Result<string, StepError>>)
    requires !NeedsReferenceRepo(b, refRepo)
    ensures |rs| == |b.different|
  {
    if |b.different| > 0 then MakeReferences(b.different, refRepo.value, service) else []
  }

  /**
   Everything after classification: create placeholders for different-owner URLs, link the
   same-owner URLs and then the placeholders, and decide about the body.
   */
  function Process(body: string, b: Buckets, refRepo: Option<RepoRef>, service: Service): (r: Report)
    requires !NeedsReferenceRepo(b, refRepo)
    ensures r.newBody.Some? <==> r.errorCount == 0 && |r.linkAttempts| > 0
    ensures r.newBody.Some? ==> r.newBody.value == ReplaceTasklist(body, CreateTasklistBody(b.nonIssue))
  {
    var refs := References(b, refRepo, service);
    var attempts := b.same + Successes(refs);
    var links := LinkIssues(attempts, service);
    Finalise(body, b.errors + Failures(refs) + Failures(links), attempts, b.nonIssue)
  }

  /** Every URL is linked in turn: the same-owner URLs first, in task order, then the placeholders that could be created. */
  lemma ProcessLinksInOrder(body: string, b: Buckets, refRepo: Option<RepoRef>, service: Service)
    requires !NeedsReferenceRepo(b, refRepo)
    ensures var r := Process(body, b, refRepo, service);
      && |b.same| <= |r.linkAttempts| <= |b.same| + |b.different|
      && r.linkAttempts[..|b.same|] == b.same
      && r.linkAttempts[|b.same|..] == Successes(References(b, refRepo, service))
      && (|r.linkAttempts| == |b.same| + |b.different| <==> AllSucceed(References(b, refRepo, service)))
  {
    var refs := References(b, refRepo, service);
    var attempts := b.same + Successes(refs);
    assert attempts[..|b.same|] == b.same;
    assert attempts[|b.same|..] == Successes(refs);
    NoFailures(refs);
  }

  /**
   After the same-owner URLs, the run links the placeholders in the order of the different-owner
   URLs they were created for: `idx[k]` is the different-owner URL whose placeholder is the
   `k`-th of them, and every URL whose placeholder could be created is among them.
   */
  lemma PlaceholdersLinked(body: string, b: Buckets, refRepo: Option<RepoRef>, service: Service) returns (idx: seq<nat>)
    requires !NeedsReferenceRepo(b, refRepo)
    ensures var r := Process(body, b, refRepo, service);
      && |b.same| + |idx| == |r.linkAttempts|
      && Increasing(idx)
      && (forall k :: 0 <= k < |idx| ==>
            && idx[k] < |b.different|
            && MakeReference(idx[k], b.different[idx[k]], refRepo.value, service) == Success(r.linkAttempts[|b.same| + k]))
      && (forall i :: 0 <= i < |b.different| && MakeReference(i, b.different[i], refRepo.value, service).Success? ==> i in idx)
  {
    var refs := References(b, refRepo, service);
    var attempts := b.same + Successes(refs);
    ProcessLinksInOrder(body, b, refRepo, service);
    idx := SuccessesInOrder(refs);
    assert forall k :: 0 <= k < |idx| ==> attempts[|b.same| + k] == Successes(refs)[k];
    assert forall i :: 0 <= i < |refs| ==> refs[i] == MakeReference(i, b.different[i], refRepo.value, service);
  }

  /**
   A run is error-free exactly when classification, every placeholder creation and every link
   succeeded; only then can the parent body be rewritten.
   */
  lemma ProcessErrorFree(body: string, b: Buckets, refRepo: Option<RepoRef>, service: Service)
    requires !NeedsReferenceRepo(b, refRepo)
    ensures var r := Process(body, b, refRepo, service);
      r.errorCount == 0 <==>
        && b.errors == 0
        && (forall i :: 0 <= i < |b.different| ==> MakeReference(i, b.different[i], refRepo.value, service).Success?)
        && (forall k :: 0 <= k < |r.linkAttempts| ==> LinkIssue(k, r.linkAttempts[k], service).Success?)
  {
    var refs := References(b, refRepo, service);
    var attempts := b.same + Successes(refs);
    NoFailures(refs);
    NoFailures(LinkIssues(attempts, service));
    EachReference(b, refRepo, service);
    EachLink(attempts, service);
  }

  /**
   The error count a run reports is the classification errors plus one for each different-owner
   URL whose placeholder could not be created, plus one for each link attempt that failed.
   */
  lemma ProcessErrorCount(body: string, b: Buckets, refRepo: Option<RepoRef>, service: Service)
    requires !NeedsReferenceRepo(b, refRepo)
    ensures var r := Process(body, b, refRepo, service);
      r.errorCount == b.errors
        + |set i: nat | i < |b.different| && MakeReference(i, b.different[i], refRepo.value, service).Failure?|
        + |set k: nat | k < |r.linkAttempts| && LinkIssue(k, r.linkAttempts[k], service).Failure?|
  {
    var refs := References(b, refRepo, service);
    var attempts := b.same + Successes(refs);
    var links := LinkIssues(attempts, service);
    FailuresCount(refs);
    FailuresCount(links);
    assert (set i: nat | i < |refs| && refs[i].Failure?)
        == (set i: nat | i < |b.different| && MakeReference(i, b.different[i], refRepo.value, service).Failure?);
    assert (set k: nat | k < |links| && links[k].Failure?)
        == (set k: nat | k < |attempts| && LinkIssue(k, attempts[k], service).Failure?);
  }

  lemma EachReference(b: Buckets, refRepo: Option<RepoRef>, service: Service)
    requires !NeedsReferenceRepo(b, refRepo)
    ensures AllSucceed(References(b, refRepo, service)) <==>
      forall i :: 0 <= i < |b.different| ==> MakeReference(i, b.different[i], refRepo.value, service).Success?
  {
    var refs := References(b, refRepo, service);
    assert forall i :: 0 <= i < |refs| ==> refs[i] == MakeReference(i, b.different[i], refRepo.value, service);
  }

  lemma EachLink(urls: seq<string>, service: Service)
    ensures AllSucceed(LinkIssues(urls, service)) <==>
      forall k :: 0 <= k < |urls| ==> LinkIssue(k, urls[k], service).Success?
  {
    var links := LinkIssues(urls, service);
    assert forall k :: 0 <= k < |links| ==> links[k] == LinkIssue(k, urls[k], service);
  }

  /** The buckets of the parent's task list. */
  function ParentBuckets(parent: IssueRef, body: string): Buckets {
    Bucketed(parent.owner, ExtractTasks(body))
  }

  /**
   `create_sub_issues`. `parentBody` is the parent's body as fetched, `None` when the parent's
   details, body or node id could not be obtained; `refRepo` is what `__init__` configured.
   */
  function CreateSubIssues(parentUrl: string, parentBody: Option<string>, refRepo: Option<RepoRef>, service: Service): (run: Run)
    ensures SplitGitHubIssueUrl(parentUrl).Failure? ==> run == Aborted(InvalidParentUrl(SplitGitHubIssueUrl(parentUrl).error))
    ensures SplitGitHubIssueUrl(parentUrl).Success? && parentBody.None? ==> run == Aborted(ParentUnavailable)
    ensures run.Aborted? && run.reason.MissingReferenceRepo? <==>
      && SplitGitHubIssueUrl(parentUrl).Success? && parentBody.Some?
      && NeedsReferenceRepo(ParentBuckets(SplitGitHubIssueUrl(parentUrl).value, parentBody.value), refRepo)
    ensures run.Finished? ==>
      && SplitGitHubIssueUrl(parentUrl).Success? && parentBody.Some?
      && (run.report.newBody.Some? <==> run.report.errorCount == 0 && |run.report.linkAttempts| > 0)
    ensures run.Finished? && run.report.newBody.Some? ==>
      run.report.newBody.value == ReplaceTasklist(parentBody.value,
        CreateTasklistBody(ParentBuckets(SplitGitHubIssueUrl(parentUrl).value, parentBody.value).nonIssue))
  {
    match SplitGitHubIssueUrl(parentUrl)
    case Failure(e) => Aborted(InvalidParentUrl(e))
    case Success(parent) =>
      match parentBody
      case None => Aborted(ParentUnavailable)
      case Some(body) =>
        var b := ParentBuckets(parent, body);
        if NeedsReferenceRepo(b, refRepo) then Aborted(MissingReferenceRepo(|b.different|))
        else Finished(Process(body, b, refRepo, service))
  }

  /** Once the parent and its body are at hand and no reference repository is missing, the run finishes. */
  lemma RunFinishes(parentUrl: string, body: string, refRepo: Option<RepoRef>, service: Service)
    requires SplitGitHubIssueUrl(parentUrl).Success?
    requires !NeedsReferenceRepo(ParentBuckets(SplitGitHubIssueUrl(parentUrl).value, body), refRepo)
    ensures CreateSubIssues(parentUrl, Some(body), refRepo, service)
      == Finished(Process(body, ParentBuckets(SplitGitHubIssueUrl(parentUrl).value, body), refRepo, service))
  {
  }

  /** Tasks read from a body are trimmed, so every error a run counts comes from creating or linking. */
  lemma ParentClassifiesCleanly(parent: IssueRef, body: string)
    ensures ParentBuckets(parent, body).errors == 0
  {
    TrimmedTasksClassify(parent.owner, ExtractTasks(body));
  }

  /** Tasks drawn from a serialisable list are serialisable. */
  lemma SerialisableFrom(tasks: seq<Task>, sub: seq<Task>)
    requires Serialisable(tasks)
    requires forall t :: t in sub ==> t in tasks
    ensures Serialisable(sub)
  {
    forall i | 0 <= i < |sub|
      ensures Trimmed(sub[i].text) && '\n' !in sub[i].text
    {
      assert sub[i] in tasks;
    }
  }

  /** No backtick in any task drawn from a list without backticks. */
  lemma NoBackticksFrom(tasks: seq<Task>, sub: seq<Task>)
    requires NoBackticks(tasks)
    requires forall t :: t in sub ==> t in tasks
    ensures NoBackticks(sub)
  {
    forall i | 0 <= i < |sub|
      ensures '`' !in sub[i].text
    {
      assert sub[i] in tasks;
    }
  }

  /** The plain tasks of a serialisable list, with what extraction and rewriting need of them. */
  lemma PlainTasksOf(parentOwner: string, tasks: seq<Task>)
    requires Serialisable(tasks) && NoBackticks(tasks)
    ensures var plain := Bucketed(parentOwner, tasks).nonIssue;
      && Serialisable(plain) && NoBackticks(plain)
      && (forall i :: 0 <= i < |plain| ==> !IsGitHubIssueUrl(plain[i].text))
      && (forall t :: t in plain ==> t in tasks)
  {
    var plain := Bucketed(parentOwner, tasks).nonIssue;
    BucketsSound(parentOwner, tasks);
    SerialisableFrom(tasks, plain);
    NoBackticksFrom(tasks, plain);
    assert forall i :: 0 <= i < |plain| ==> plain[i] in plain;
  }

  /** The tool's own tasklist as the whole body: the tasks read back are the ones written. */
  lemma WrittenBodyTasks(parent: IssueRef, tasks: seq<Task>)
    requires Serialisable(tasks)
    ensures ParentBuckets(parent, CreateTasklistBody(tasks)) == Bucketed(parent.owner, tasks)
  {
    TasklistRoundTrip(tasks);
  }

  /** Replacing the block of a body that is only the tool's tasklist leaves only the replacement. */
  lemma ReplaceWholeBody(tasks: seq<Task>, repl: string)
    requires |tasks| > 0 && NoBackticks(tasks)
    ensures ReplaceTasklist(CreateTasklistBody(tasks), repl) == repl
  {
    ReplaceWritten("", tasks, "", repl);
    Unframed(CreateTasklistBody(tasks));
    Unframed(repl);
  }

  lemma Unframed(x: string)
    ensures "" + x + "" == x
  {
  }

  /**
   When the parent's body is a tasklist of serialisable tasks and the run rewrites it, the new
   body is a tasklist of exactly the plain tasks, in their original order, and reading it back gives them.
   */
  lemma RewriteKeepsPlainTasks(parentUrl: string, tasks: seq<Task>, refRepo: Option<RepoRef>, service: Service)
    requires SplitGitHubIssueUrl(parentUrl).Success?
    requires Serialisable(tasks) && NoBackticks(tasks) && |tasks| > 0
    requires var run := CreateSubIssues(parentUrl, Some(CreateTasklistBody(tasks)), refRepo, service);
      run.Finished? && run.report.newBody.Some?
    ensures var plain := Bucketed(SplitGitHubIssueUrl(parentUrl).value.owner, tasks).nonIssue;
      var newBody := CreateSubIssues(parentUrl, Some(CreateTasklistBody(tasks)), refRepo, service).report.newBody.value;
      && newBody == CreateTasklistBody(plain)
      && ExtractTasks(newBody) == plain
      && (forall t :: t in plain ==> t in tasks && !IsGitHubIssueUrl(t.text))
  {
    var parent := SplitGitHubIssueUrl(parentUrl).value;
    var plain := Bucketed(parent.owner, tasks).nonIssue;
    WrittenBodyTasks(parent, tasks);
    PlainTasksOf(parent.owner, tasks);
    BucketsSound(parent.owner, tasks);
    ReplaceWholeBody(tasks, CreateTasklistBody(plain));
    TasklistRoundTrip(plain);
  }

  /** Processing a list of plain tasks links nothing, counts nothing and leaves the body alone. */
  lemma ProcessPlain(body: string, plain: seq<Task>, refRepo: Option<RepoRef>, service: Service)
    ensures Process(body, Buckets([], [], plain, 0), refRepo, service) == Report(0, [], None)
  {
    var b := Buckets([], [], plain, 0);
    assert References(b, refRepo, service) == [];
    assert b.same + Successes([]) == [];
    assert LinkIssues([], service) == [];
  }

  /** A second run over a body the first run rewrote finds nothing to do and leaves it alone. */
  lemma SecondRunIdle(parentUrl: string, tasks: seq<Task>, refRepo: Option<RepoRef>, service: Service, service2: Service)
    requires SplitGitHubIssueUrl(parentUrl).Success?
    requires Serialisable(tasks) && NoBackticks(tasks) && |tasks| > 0
    requires var run := CreateSubIssues(parentUrl, Some(CreateTasklistBody(tasks)), refRepo, service);
      run.Finished? && run.report.newBody.Some?
    ensures var newBody := CreateSubIssues(parentUrl, Some(CreateTasklistBody(tasks)), refRepo, service).report.newBody.value;
      CreateSubIssues(parentUrl, Some(newBody), refRepo, service2) == Finished(Report(0, [], None))
  {
    var parent := SplitGitHubIssueUrl(parentUrl).value;
    var plain := Bucketed(parent.owner, tasks).nonIssue;
    RewriteKeepsPlainTasks(parentUrl, tasks, refRepo, service);
    var newBody := CreateTasklistBody(plain);
    PlainTasksOf(parent.owner, tasks);
    PlainTasksStay(parent.owner, plain);
    assert ParentBuckets(parent, newBody) == Buckets([], [], plain, 0);
    ProcessPlain(newBody, plain, refRepo, service2);
    RunFinishes(parentUrl, newBody, refRepo, service2);
  }

  /** A string that starts and ends with a non-space character is trimmed. */
  lemma ConcatTrimmed(a: string, b: string)
    requires |a| > 0 && |b| > 0 && !IsSpace(a[0]) && !IsSpace(b[|b| - 1])
    ensures Trimmed(a + b)
  {
  }

  /** The canonical URL of an issue whose number does not end in whitespace has no surrounding whitespace. */
  lemma IssueUrlTrimmed(ref: IssueRef)
    requires |ref.issueId| > 0 && !IsSpace(ref.issueId[|ref.issueId| - 1])
    ensures Trimmed(IssueUrl(ref))
  {
    var front := BaseUrl + ref.owner + "/" + ref.repo + "/issues/";
    assert front[0] == 'h';
    assert IssueUrl(ref) == front + ref.issueId;
    ConcatTrimmed(front, ref.issueId);
  }

  /** A canonical issue URL is sorted by its owner. */
  lemma ClassifyIssueUrl(parentOwner: string, ref: IssueRef, checked: bool)
    requires WellFormedIssueRef(ref)
    requires |ref.issueId| > 0 && !IsSpace(ref.issueId[|ref.issueId| - 1])
    ensures ClassifyTask(parentOwner, Task(IssueUrl(ref), checked))
      == if ref.owner == parentOwner then SameOwner(IssueUrl(ref)) else DifferentOwner(IssueUrl(ref))
  {
    CanonicalIssueUrl(ref);
    ClassifyParsed(parentOwner, Task(IssueUrl(ref), checked), ref);
  }

  /** The canonical URL of a well-formed issue is trimmed and parses back to the issue. */
  lemma CanonicalIssueUrl(ref: IssueRef)
    requires WellFormedIssueRef(ref)
    requires |ref.issueId| > 0 && !IsSpace(ref.issueId[|ref.issueId| - 1])
    ensures Trimmed(IssueUrl(ref)) && SplitGitHubIssueUrl(IssueUrl(ref)) == Success(ref)
  {
    NoTail(IssueUrl(ref));
    IssueUrlRoundTrip(ref, "");
    IssueUrlTrimmed(ref);
  }

  lemma NoTail(x: string)
    ensures x + "" == x
  {
  }

  /** Trimmed text that parses is sorted by the parsed owner. */
  lemma ClassifyParsed(parentOwner: string, t: Task, ref: IssueRef)
    requires Trimmed(t.text) && SplitGitHubIssueUrl(t.text) == Success(ref)
    ensures ClassifyTask(parentOwner, t) == if ref.owner == parentOwner then SameOwner(t.text) else DifferentOwner(t.text)
  {
    RecognisedIffParsed(t.text);
  }

  /** Stripping keeps a first character that is not whitespace. */
  lemma StripKeepsFirst(s: string)
    requires |s| > 0 && !IsSpace(s[0])
    ensures |Strip(s)| > 0 && Strip(s)[0] == s[0]
  {
    assert TrimStart(s) == s;
    TrimEndShape(s);
  }

  /** Text that does not start with `h` (or with whitespace) is never an issue URL. */
  lemma ClassifyPlainText(parentOwner: string, t: Task)
    requires |t.text| > 0 && !IsSpace(t.text[0]) && t.text[0] != 'h'
    ensures ClassifyTask(parentOwner, t) == NonIssue(t)
  {
    StripKeepsFirst(t.text);
    StartsWithAt(Strip(t.text), BaseUrl, 0);
    ClassifyTaskMeaning(parentOwner, t);
  }

  /** The buckets a same-owner URL and a plain task fill. */
  lemma GatherSameAndPlain(u: string, t: Task)
    ensures Gather([SameOwner(u), NonIssue(t)]) == Buckets([u], [], [t], 0)
  {
    assert [SameOwner(u), NonIssue(t)][1..] == [NonIssue(t)];
    assert [NonIssue(t)][1..] == [];
  }

  /** The buckets a same-owner URL, a different-owner URL and a plain task fill. */
  lemma GatherMixed(u1: string, u2: string, t: Task)
    ensures Gather([SameOwner(u1), DifferentOwner(u2), NonIssue(t)]) == Buckets([u1], [u2], [t], 0)
  {
    assert [SameOwner(u1), DifferentOwner(u2), NonIssue(t)][1..] == [DifferentOwner(u2), NonIssue(t)];
    assert [DifferentOwner(u2), NonIssue(t)][1..] == [NonIssue(t)];
    assert [NonIssue(t)][1..] == [];
    assert Gather([NonIssue(t)]) == Buckets([], [], [t], 0);
    assert Gather([DifferentOwner(u2), NonIssue(t)]) == Buckets([], [u2], [t], 0);
  }

  lemma ClassesPair(parentOwner: string, t1: Task, t2: Task, c1: Class, c2: Class)
    requires ClassifyTask(parentOwner, t1) == c1 && ClassifyTask(parentOwner, t2) == c2
    ensures Classes(parentOwner, [t1, t2]) == [c1, c2]
  {
    MapPair(Classifier(parentOwner), t1, t2);
  }

  lemma ClassesTriple(parentOwner: string, t1: Task, t2: Task, t3: Task, c1: Class, c2: Class, c3: Class)
    requires ClassifyTask(parentOwner, t1) == c1 && ClassifyTask(parentOwner, t2) == c2
    requires ClassifyTask(parentOwner, t3) == c3
    ensures Classes(parentOwner, [t1, t2, t3]) == [c1, c2, c3]
  {
    MapTriple(Classifier(parentOwner), t1, t2, t3);
  }

  lemma MapPair(f: Task -> Class, t1: Task, t2: Task)
    ensures MapTasks(f, [t1, t2]) == [f(t1), f(t2)]
  {
    var ts := [t1, t2];
    var cs := MapTasks(f, ts);
    assert cs[0] == f(t1) && cs[1] == f(t2);
    PairIs(cs, f(t1), f(t2));
  }

  lemma MapTriple(f: Task -> Class, t1: Task, t2: Task, t3: Task)
    ensures MapTasks(f, [t1, t2, t3]) == [f(t1), f(t2), f(t3)]
  {
    var ts := [t1, t2, t3];
    var cs := MapTasks(f, ts);
    assert cs[0] == f(t1) && cs[1] == f(t2) && cs[2] == f(t3);
    TripleIs(cs, f(t1), f(t2), f(t3));
  }

  lemma PairIs<T>(s: seq<T>, a: T, b: T)
    requires |s| == 2 && s[0] == a && s[1] == b
    ensures s == [a, b]
  {
  }

  lemma TripleIs<T>(s: seq<T>, a: T, b: T, c: T)
    requires |s| == 3 && s[0] == a && s[1] == b && s[2] == c
    ensures s == [a, b, c]
  {
  }

  /** Two parsed issue URLs, one under the parent's owner and one not, and a plain task: one per bucket. */
  lemma ClassifyMixed(parentOwner: string, t1: Task, r1: IssueRef, t2: Task, r2: IssueRef, plain: Task)
    requires Trimmed(t1.text) && SplitGitHubIssueUrl(t1.text) == Success(r1) && r1.owner == parentOwner
    requires Trimmed(t2.text) && SplitGitHubIssueUrl(t2.text) == Success(r2) && r2.owner != parentOwner
    requires |plain.text| > 0 && !IsSpace(plain.text[0]) && plain.text[0] != 'h'
    ensures Bucketed(parentOwner, [t1, t2, plain]) == Buckets([t1.text], [t2.text], [plain], 0)
  {
    ClassifyParsed(parentOwner, t1, r1);
    ClassifyParsed(parentOwner, t2, r2);
    ClassifyPlainText(parentOwner, plain);
    ClassesTriple(parentOwner, t1, t2, plain, SameOwner(t1.text), DifferentOwner(t2.text), NonIssue(plain));
    GatherMixed(t1.text, t2.text, plain);
  }

  /**
   The classification example: under owner `orgA`, the URL of `orgA/r#1` goes to the same-owner
   bucket, that of `orgB/r#2` to the different-owner bucket and `buy milk` to the plain tasks,
   whichever boxes are ticked.
   */
  lemma ClassificationExample(c1: bool, c2: bool, c3: bool)
    ensures var u1 := IssueUrl(IssueRef("orgA", "r", "1"));
      var u2 := IssueUrl(IssueRef("orgB", "r", "2"));
      var milk := Task("buy milk", c3);
      Bucketed("orgA", [Task(u1, c1), Task(u2, c2), milk]) == Buckets([u1], [u2], [milk], 0)
  {
    var r1 := IssueRef("orgA", "r", "1");
    var r2 := IssueRef("orgB", "r", "2");
    ExampleLinkable(r1);
    ExampleLinkable(r2);
    CanonicalIssueUrl(r1);
    CanonicalIssueUrl(r2);
    ClassifyMixed("orgA", Task(IssueUrl(r1), c1), r1, Task(IssueUrl(r2), c2), r2, Task("buy milk", c3));
  }

  /** The URLs of the examples, spelled out. */
  lemma ExampleUrls()
    ensures IssueUrl(IssueRef("orgA", "r", "1")) == "https://github.com/orgA/r/issues/1"
    ensures IssueUrl(IssueRef("orgB", "r", "2")) == "https://github.com/orgB/r/issues/2"
    ensures IssueUrl(IssueRef("orgA", "r", "5")) == "https://github.com/orgA/r/issues/5"
  {
    SpelledUrl(IssueRef("orgA", "r", "1"), "https://github.com/orgA/r/issues/1");
    SpelledUrl(IssueRef("orgB", "r", "2"), "https://github.com/orgB/r/issues/2");
    SpelledUrl(IssueRef("orgA", "r", "5"), "https://github.com/orgA/r/issues/5");
  }

  /** An issue URL spelled out. */
  lemma SpelledUrl(ref: IssueRef, url: string)
    requires url == BaseUrl + ref.owner + "/" + ref.repo + "/issues/" + ref.issueId
    ensures IssueUrl(ref) == url
  {
  }

  /** A parsed issue URL under the parent's owner and a plain task fill one bucket each. */
  lemma ClassifySameAndPlain(parentOwner: string, u: string, ref: IssueRef, plain: Task)
    requires Trimmed(u) && SplitGitHubIssueUrl(u) == Success(ref) && ref.owner == parentOwner
    requires |plain.text| > 0 && !IsSpace(plain.text[0]) && plain.text[0] != 'h'
    ensures Bucketed(parentOwner, [Task(u, false), plain]) == Buckets([u], [], [plain], 0)
  {
    ClassifyParsed(parentOwner, Task(u, false), ref);
    ClassifyPlainText(parentOwner, plain);
    ClassesPair(parentOwner, Task(u, false), plain, SameOwner(u), NonIssue(plain));
    GatherSameAndPlain(u, plain);
  }

  /** Linking a parseable URL succeeds when the mutation's answer carries no errors. */
  lemma LinkSucceeds(url: string, service: Service)
    requires SplitGitHubIssueUrl(url).Success? && service.link(0, url) == Answered(None)
    ensures LinkIssue(0, url, service) == Success(url)
  {
  }

  /** One same-owner URL whose link succeeds, and one plain task: the plain task becomes the whole tasklist. */
  lemma ProcessOneLink(body: string, url: string, plain: Task, refRepo: Option<RepoRef>, service: Service)
    requires LinkIssue(0, url, service) == Success(url)
    ensures Process(body, Buckets([url], [], [plain], 0), refRepo, service)
      == Report(0, [url], Some(ReplaceTasklist(body, CreateTasklistBody([plain]))))
  {
    var b := Buckets([url], [], [plain], 0);
    assert References(b, refRepo, service) == [];
    assert b.same + Successes([]) == [url];
    assert LinkIssues([url], service) == [Success(url)];
  }

  /** No line break and no backtick: text a tasklist line can hold and the block matcher does not trip over. */
  predicate Writable(s: string) {
    '\n' !in s && '`' !in s
  }

  /** The URL of an issue whose parts are writable is writable. */
  lemma IssueUrlWritable(ref: IssueRef)
    requires Writable(ref.owner) && Writable(ref.repo) && Writable(ref.issueId)
    ensures Writable(IssueUrl(ref))
  {
    assert Writable(BaseUrl) && Writable("/") && Writable("/issues/");
    assert IssueUrl(ref) == BaseUrl + ref.owner + "/" + ref.repo + "/issues/" + ref.issueId;
  }

  lemma PairSerialisable(t1: Task, t2: Task)
    requires Trimmed(t1.text) && Writable(t1.text)
    requires Trimmed(t2.text) && Writable(t2.text)
    ensures Serialisable([t1, t2]) && NoBackticks([t1, t2])
  {
  }

  /** An issue whose canonical URL can be written into a tasklist and read back as itself. */
  predicate Linkable(ref: IssueRef) {
    && WellFormedIssueRef(ref) && |ref.issueId| > 0 && !IsSpace(ref.issueId[|ref.issueId| - 1])
    && Writable(ref.owner) && Writable(ref.repo) && Writable(ref.issueId)
  }

  /** Task text that can be written into a tasklist and is never taken for an issue URL. */
  predicate PlainText(t: Task) {
    |t.text| > 0 && Trimmed(t.text) && t.text[0] != 'h' && Writable(t.text)
  }

  /**
   A parent whose tasklist holds one issue under its own owner and one plain task: the issue is
   linked, nothing is counted, and the tasklist is rewritten to hold the plain task alone.
   */
  lemma SameOwnerRun(parentUrl: string, ref: IssueRef, plain: Task, refRepo: Option<RepoRef>, service: Service)
    requires SplitGitHubIssueUrl(parentUrl).Success? && ref.owner == SplitGitHubIssueUrl(parentUrl).value.owner
    requires Linkable(ref) && PlainText(plain)
    requires service.link(0, IssueUrl(ref)) == Answered(None)
    ensures var body := CreateTasklistBody([Task(IssueUrl(ref), false), plain]);
      CreateSubIssues(parentUrl, Some(body), refRepo, service)
        == Finished(Report(0, [IssueUrl(ref)], Some(CreateTasklistBody([plain]))))
  {
    var parent := SplitGitHubIssueUrl(parentUrl).value;
    var u := IssueUrl(ref);
    var tasks := [Task(u, false), plain];
    var body := CreateTasklistBody(tasks);
    CanonicalIssueUrl(ref);
    IssueUrlWritable(ref);
    PairSerialisable(Task(u, false), plain);
    WrittenBodyTasks(parent, tasks);
    ClassifySameAndPlain(parent.owner, u, ref, plain);
    LinkSucceeds(u, service);
    ProcessOneLink(body, u, plain, refRepo, service);
    ReplaceWholeBody(tasks, CreateTasklistBody([plain]));
    RunFinishes(parentUrl, body, refRepo, service);
  }

  /**
   The end-to-end example: the parent `orgA/r#1` lists `orgA/r#5` and `write docs`; issue 5 is
   the one link made and the tasklist is rewritten to hold `write docs` alone.
   */
  lemma EndToEndExample(refRepo: Option<RepoRef>, service: Service)
    requires service.link(0, IssueUrl(IssueRef("orgA", "r", "5"))) == Answered(None)
    ensures var u5 := IssueUrl(IssueRef("orgA", "r", "5"));
      var docs := Task("write docs", false);
      var body := CreateTasklistBody([Task(u5, false), docs]);
      CreateSubIssues(IssueUrl(IssueRef("orgA", "r", "1")), Some(body), refRepo, service)
        == Finished(Report(0, [u5], Some(CreateTasklistBody([docs]))))
  {
    var p := IssueRef("orgA", "r", "1");
    var r5 := IssueRef("orgA", "r", "5");
    ExampleLinkable(p);
    ExampleLinkable(r5);
    ExamplePlain();
    CanonicalIssueUrl(p);
    SameOwnerRun(IssueUrl(p), r5, Task("write docs", false), refRepo, service);
  }

  lemma ExampleLinkable(ref: IssueRef)
    requires ref.owner in {"orgA", "orgB"} && ref.repo == "r" && ref.issueId in {"1", "2", "5"}
    ensures Linkable(ref)
  {
  }

  lemma ExamplePlain()
    ensures PlainText(Task("write docs", false))
  {
  }
}

=== FILE: subsequence.dfy ===
/**
 Picking the filled positions out of a sequence of optional values, keeping their order:
 `Present` does the picking, and `PresentInOrder` names the positions each picked value comes from.
 */
module Subsequence {
  import opened Wrappers

  /** `idx[k]` is the position whose value is `r[k]`. */
  predicate ReadFrom<T(==)>(recs: seq<Option<T>>, r: seq<T>, idx: seq<nat>) {
    && |idx| == |r|
    && forall k :: 0 <= k < |idx| ==> idx[k] < |recs| && recs[idx[k]] == Some(r[k])
  }

  predicate Increasing(idx: seq<nat>) {
    forall k, l :: 0 <= k < l < |idx| ==> idx[k] < idx[l]
  }

  /** Every position at or after `from` that holds a value is listed in `idx`. */
  predicate CoversFrom<T>(recs: seq<Option<T>>, idx: seq<nat>, from: nat) {
    forall i :: from <= i < |recs| && recs[i].Some? ==> i in idx
  }

  function Shift(idx: seq<nat>): (r: seq<nat>)
    ensures |r| == |idx|
    ensures forall k :: 0 <= k < |idx| ==> r[k] == idx[k] + 1
  {
    seq(|idx|, k requires 0 <= k < |idx| => idx[k] + 1)
  }

  lemma ShiftReadFrom<T>(recs: seq<Option<T>>, r: seq<T>, idx: seq<nat>)
    requires |recs| > 0 && ReadFrom(recs[1..], r, idx)
    ensures ReadFrom(recs, r, Shift(idx))
  {
    forall k | 0 <= k < |idx| ensures Shift(idx)[k] < |recs| && recs[Shift(idx)[k]] == Some(r[k]) {
      assert recs[Shift(idx)[k]] == recs[1..][idx[k]];
    }
  }

  lemma ShiftCovers<T>(recs: seq<Option<T>>, idx: seq<nat>)
    requires |recs| > 0 && CoversFrom(recs[1..], idx, 0)
    ensures CoversFrom(recs, Shift(idx), 1)
    ensures Increasing(idx) ==> Increasing(Shift(idx))
  {
    forall i | 1 <= i < |recs| && recs[i].Some? ensures i in Shift(idx) {
      assert recs[1..][i - 1] == recs[i];
      var k :| 0 <= k < |idx| && idx[k] == i - 1;
      assert Shift(idx)[k] == i;
    }
  }

  lemma ConsReadFrom<T>(recs: seq<Option<T>>, t: T, r: seq<T>, idx: seq<nat>)
    requires |recs| > 0 && recs[0] == Some(t)
    requires ReadFrom(recs, r, idx)
    ensures ReadFrom(recs, [t] + r, [0] + idx)
  {
    var idx', r' := [0] + idx, [t] + r;
    forall k | 0 <= k < |idx'| ensures idx'[k] < |recs| && recs[idx'[k]] == Some(r'[k]) {
      if k > 0 {
        assert idx'[k] == idx[k - 1] && r'[k] == r[k - 1];
      }
    }
  }

  lemma ConsIncreasing(idx: seq<nat>)
    requires Increasing(idx)
    requires forall k :: 0 <= k < |idx| ==> idx[k] >= 1
    ensures Increasing([0] + idx)
  {
    var idx' := [0] + idx;
    forall k, l | 0 <= k < l < |idx'| ensures idx'[k] < idx'[l] {
      assert idx'[l] == idx[l - 1];
      if k > 0 {
        assert idx'[k] == idx[k - 1];
      }
    }
  }

  /** The values present in `recs`, in order. */
  function Present<T>(recs: seq<Option<T>>): (r: seq<T>)
    ensures |r| <= |recs|
  {
    if |recs| == 0 then []
    else (if recs[0].Some? then [recs[0].value] else []) + Present(recs[1..])
  }

  /** `Present` keeps exactly the filled positions, increasing, and nothing else. */
  lemma {:induction false} PresentInOrder<T>(recs: seq<Option<T>>) returns (idx: seq<nat>)
    ensures ReadFrom(recs, Present(recs), idx)
    ensures Increasing(idx)
    ensures CoversFrom(recs, idx, 0)
    decreases |recs|
  {
    if |recs| == 0 {
      idx := [];
    } else {
      var sub := PresentInOrder(recs[1..]);
      var rest := Present(recs[1..]);
      ShiftReadFrom(recs, rest, sub);
      ShiftCovers(recs, sub);
      var shifted := Shift(sub);
      match recs[0]
      case Some(t) =>
        idx := [0] + shifted;
        assert Present(recs) == [t] + rest;
        ConsReadFrom(recs, t, rest, shifted);
        ConsIncreasing(shifted);
      case None =>
        idx := shifted;
        assert Present(recs) == rest;
    }
  }

}

=== FILE: tasklist.dfy ===
/**
 Markdown checklists in an issue body: `extract_tasks` reads `- [ ]` / `- [x]` lines,
 `create_tasklist_body` writes a fenced `[tasklist]` block back.
 */
module Tasklist {
  import opened Wrappers
  import opened Text
  import opened Subsequence

  /** One checklist entry. */
  datatype Task = Task(text: string, isChecked: bool)

  const UncheckedMarker: string := "- [ ]"
  const CheckedMarker: string := "- [x]"

  /** A line counts when, once stripped, it begins with one of the two markers; only a lower-case `x` is checked. */
  predicate IsTaskLine(line: string) {
    var t := Strip(line);
    StartsWith(t, UncheckedMarker) || StartsWith(t, CheckedMarker)
  }

  /**
   The record one line contributes. The flag is read from the stripped line, but the text is
   taken from the unstripped line after its first five characters, so an indented item keeps
   part of its marker (see `IndentedItemKeepsMarkerDebris`).
   */
  function TaskOfLine(line: string): (r: Option<Task>)
    ensures r.Some? <==> IsTaskLine(line)
    ensures r.Some? ==> (r.value.isChecked <==> StartsWith(Strip(line), CheckedMarker))
    ensures r.Some? ==> Trimmed(r.value.text) && |r.value.text| + 5 <= |line|
    ensures r.Some? && '\n' !in line ==> '\n' !in r.value.text
  {
    var t := Strip(line);
    if StartsWith(t, UncheckedMarker) || StartsWith(t, CheckedMarker) then
      MarkerFlag(t);
      var text := Strip(line[5..]);
      StripKeepsOut(line[5..], '\n');
      Some(Task(text, t[3] == 'x'))
    else
      None
  }

  /** Of the two markers, the fourth character tells which one a line starts with. */
  lemma MarkerFlag(t: string)
    requires StartsWith(t, UncheckedMarker) || StartsWith(t, CheckedMarker)
    ensures |t| >= 5
    ensures t[3] == 'x' <==> StartsWith(t, CheckedMarker)
  {
    StartsWithAt(t, UncheckedMarker, 3);
    StartsWithAt(t, CheckedMarker, 3);
  }

  /** No task text has whitespace at either end. */
  predicate TrimmedTexts(tasks: seq<Task>) {
    forall i :: 0 <= i < |tasks| ==> Trimmed(tasks[i].text)
  }

  /** No task text holds a line break, so each task is written on a line of its own. */
  predicate SingleLine(tasks: seq<Task>) {
    forall i :: 0 <= i < |tasks| ==> '\n' !in tasks[i].text
  }

  /** Texts that survive a write and a re-read unchanged: trimmed and on one line. */
  predicate Serialisable(tasks: seq<Task>) {
    TrimmedTexts(tasks) && SingleLine(tasks)
  }

  /** What one line contributes to the result: its record, or nothing. */
  function LineTasks(line: string): (r: seq<Task>)
    ensures |r| <= 1
    ensures TrimmedTexts(r)
  {
    match TaskOfLine(line)
    case Some(t) => [t]
    case None => []
  }

  lemma TrimmedAppend(a: seq<Task>, b: seq<Task>)
    requires TrimmedTexts(a) && TrimmedTexts(b)
    ensures TrimmedTexts(a + b)
  {
    forall i | 0 <= i < |a + b| ensures Trimmed((a + b)[i].text) {
      if i >= |a| {
        assert (a + b)[i] == b[i - |a|];
      }
    }
  }

  lemma SerialisableAppend(a: seq<Task>, b: seq<Task>)
    requires Serialisable(a) && Serialisable(b)
    ensures Serialisable(a + b)
  {
    TrimmedAppend(a, b);
    forall i | 0 <= i < |a + b| ensures '\n' !in (a + b)[i].text {
      if i >= |a| {
        assert (a + b)[i] == b[i - |a|];
      }
    }
  }

  /** Records for a sequence of lines, in line order. */
  function ExtractFromLines(lines: seq<string>): (r: seq<Task>)
    ensures |r| <= |lines|
    ensures TrimmedTexts(r)
  {
    if |lines| == 0 then []
    else
      var here := LineTasks(lines[0]);
      var rest := ExtractFromLines(lines[1..]);
      TrimmedAppend(here, rest);
      here + rest
  }

  /** Texts read from single lines are single lines. */
  lemma {:induction false} ExtractSingleLines(lines: seq<string>)
    requires NoneContains(lines, '\n')
    ensures Serialisable(ExtractFromLines(lines))
    decreases |lines|
  {
    if |lines| > 0 {
      assert NoneContains(lines[1..], '\n');
      ExtractSingleLines(lines[1..]);
      var here := LineTasks(lines[0]);
      assert Serialisable(here) by {
        assert '\n' !in lines[0];
      }
      SerialisableAppend(here, ExtractFromLines(lines[1..]));
    }
  }

  /** `extract_tasks`: split the body on `\n` and keep the checklist lines. */
  function ExtractTasks(body: string): (r: seq<Task>)
    ensures |r| <= |Split(body, '\n')|
    ensures Serialisable(r)
  {
    var lines := Split(body, '\n');
    ExtractSingleLines(lines);
    ExtractFromLines(lines)
  }

  /** Extraction works line by line, so it distributes over concatenation of line lists. */
  lemma {:induction false} ExtractAppend(a: seq<string>, b: seq<string>)
    ensures ExtractFromLines(a + b) == ExtractFromLines(a) + ExtractFromLines(b)
    decreases |a|
  {
    if |a| == 0 {
      assert a + b == b;
    } else {
      assert (a + b)[1..] == a[1..] + b;
      ExtractAppend(a[1..], b);
    }
  }

  /** The record each line would contribute, line by line. */
  function Records(lines: seq<string>): (recs: seq<Option<Task>>)
    ensures |recs| == |lines|
  {
    seq(|lines|, i requires 0 <= i < |lines| => TaskOfLine(lines[i]))
  }

  lemma RecordsAt(lines: seq<string>, i: nat)
    requires i < |lines|
    ensures Records(lines)[i] == TaskOfLine(lines[i])
  {
  }

  lemma RecordsTail(lines: seq<string>)
    requires |lines| > 0
    ensures Records(lines[1..]) == Records(lines)[1..]
  {
  }

  /** Extraction keeps the record of every line that has one, in line order. */
  lemma {:induction false} ExtractIsPresent(lines: seq<string>)
    ensures ExtractFromLines(lines) == Present(Records(lines))
    decreases |lines|
  {
    if |lines| > 0 {
      ExtractIsPresent(lines[1..]);
      RecordsTail(lines);
      RecordsAt(lines, 0);
    }
  }

  /**
   Records appear in source order, one for each checklist line and for nothing else:
   `idx` lists, increasing, the line each record comes from (`Records(lines)[i]` is
   `TaskOfLine(lines[i])`, see `RecordsAt`), and covers every line that yields a record.
   */
  lemma ExtractedInSourceOrder(lines: seq<string>) returns (idx: seq<nat>)
    ensures ReadFrom(Records(lines), ExtractFromLines(lines), idx)
    ensures Increasing(idx)
    ensures CoversFrom(Records(lines), idx, 0)
  {
    ExtractIsPresent(lines);
    idx := PresentInOrder(Records(lines));
  }

  /** Leading whitespace does not change what `strip()` gives for a line that starts with `-`. */
  lemma StripIndented(pad: string, body: string)
    requires AllSpace(pad) && |body| > 0 && body[0] == '-'
    ensures Strip(pad + body) == Strip(body)
  {
    TrimStartPadded(pad, body);
    assert "" + body == body;
    TrimStartPadded("", body);
  }

  /** The marker of a checked or an unchecked item. */
  function Marker(checked: bool): string {
    if checked then CheckedMarker else UncheckedMarker
  }

  /** A line whose stripped form starts with a marker yields that marker's flag and the text after five characters. */
  lemma MarkedLineTask(line: string, checked: bool)
    requires StartsWith(Strip(line), Marker(checked))
    ensures TaskOfLine(line) == Some(Task(Strip(line[5..]), checked))
  {
    StartsWithAt(Strip(line), Marker(checked), 3);
    StartsWithAt(Strip(line), CheckedMarker, 3);
  }

  /** Indenting a written item does not stop it being recognised, and its flag is read correctly. */
  lemma IndentedItemFlag(pad: string, checked: bool, text: string)
    requires AllSpace(pad) && Trimmed(text)
    ensures TaskOfLine(pad + (Marker(checked) + " " + text))
         == Some(Task(Strip((pad + (Marker(checked) + " " + text))[5..]), checked))
  {
    var body := Marker(checked) + " " + text;
    assert body[0] == '-';
    StripIndented(pad, body);
    MarkerFacts(checked);
    MarkedLineStrip(Marker(checked), text);
    MarkedLineTask(pad + body, checked);
  }

  /** The text of a recognised line `pad + body` is what `strip()` leaves of `body` cut `5 - |pad|` characters in. */
  lemma CutText(pad: string, body: string, checked: bool)
    requires |pad| <= 5 && 5 <= |pad| + |body|
    requires TaskOfLine(pad + body) == Some(Task(Strip((pad + body)[5..]), checked))
    ensures TaskOfLine(pad + body).value.text == Strip(body[5 - |pad|..])
  {
    StripDropConcat(pad, body, 5);
  }

  /**
   An item indented by `pad` is recognised and its flag read correctly, but its text is
   cut `5 - |pad|` characters into the item, so the tail of the marker stays in the text.
   */
  lemma IndentedItem(pad: string, checked: bool, text: string)
    requires AllSpace(pad) && |pad| <= 5 && Trimmed(text)
    ensures TaskOfLine(pad + (Marker(checked) + " " + text)).Some?
    ensures TaskOfLine(pad + (Marker(checked) + " " + text)).value.isChecked == checked
    ensures TaskOfLine(pad + (Marker(checked) + " " + text)).value.text
         == Strip((Marker(checked) + " " + text)[5 - |pad|..])
  {
    IndentedItemFlag(pad, checked, text);
    CutText(pad, Marker(checked) + " " + text, checked);
  }

  lemma DebrisText()
    ensures (CheckedMarker + " " + "foo")[3..] == "x] foo"
    ensures Strip("x] foo") == "x] foo"
  {
    StripTrimmed("x] foo");
  }

  /** An indented item keeps the tail of its marker in its text, although its flag is read correctly. */
  lemma IndentedItemKeepsMarkerDebris()
    ensures TaskOfLine("  " + (CheckedMarker + " " + "foo")) == Some(Task("x] foo", true))
  {
    assert AllSpace("  ") by {
      assert "  "[0] == ' ' && "  "[1] == ' ';
    }
    IndentedItem("  ", true, "foo");
    DebrisText();
  }

  const TasklistOpening: string := "```[tasklist]"
  const TasklistHeading: string := "### Tasks"
  const TasklistClosing: string := "```"

  function Checkbox(checked: bool): string {
    if checked then "[x]" else "[ ]"
  }

  /** The line `create_tasklist_body` writes for one task. */
  function TaskLine(t: Task): string {
    "- " + Checkbox(t.isChecked) + " " + t.text
  }

  /** The lines of a list of tasks, one per task, in order. */
  function TaskLineList(tasks: seq<Task>): (r: seq<string>)
    ensures |r| == |tasks|
  {
    if |tasks| == 0 then [] else [TaskLine(tasks[0])] + TaskLineList(tasks[1..])
  }

  /** The loop of `create_tasklist_body`: each task contributes a newline and its line. */
  function TaskLines(tasks: seq<Task>): string {
    if |tasks| == 0 then "" else "\n" + TaskLine(tasks[0]) + TaskLines(tasks[1..])
  }

  /** `create_tasklist_body`: empty for no tasks, otherwise a fenced `[tasklist]` block. */
  function CreateTasklistBody(tasks: seq<Task>): (r: string)
    ensures |tasks| == 0 <==> r == ""
    ensures |tasks| > 0 ==> StartsWith(r, TasklistOpening + "\n" + TasklistHeading)
    ensures |tasks| > 0 ==> EndsWith(r, "\n" + TasklistClosing)
  {
    if |tasks| == 0 then ""
    else
      var r := TasklistOpening + "\n" + TasklistHeading + TaskLines(tasks) + "\n" + TasklistClosing;
      assert r[..|TasklistOpening + "\n" + TasklistHeading|] == TasklistOpening + "\n" + TasklistHeading;
      r
  }

  /** The loop of `create_tasklist_body` puts a newline before every task line. */
  lemma {:induction false} TaskLinesEach(tasks: seq<Task>)
    ensures TaskLines(tasks) == PrefixEach(TaskLineList(tasks), "\n")
    decreases |tasks|
  {
    if |tasks| > 0 {
      TaskLinesEach(tasks[1..]);
    }
  }

  lemma JoinTaskLines(prefix: seq<string>, tasks: seq<Task>)
    requires |prefix| >= 1
    ensures Join(prefix, "\n") + TaskLines(tasks) == Join(prefix + TaskLineList(tasks), "\n")
  {
    TaskLinesEach(tasks);
    JoinExtend(prefix, TaskLineList(tasks), "\n");
  }

  lemma {:induction false} TaskLinesSingle(tasks: seq<Task>)
    requires SingleLine(tasks)
    ensures NoneContains(TaskLineList(tasks), '\n')
    decreases |tasks|
  {
    if |tasks| > 0 {
      assert SingleLine(tasks[1..]);
      TaskLinesSingle(tasks[1..]);
      var line := TaskLine(tasks[0]);
      assert '\n' !in line by {
        assert '\n' !in tasks[0].text;
        assert line == "- " + Checkbox(tasks[0].isChecked) + " " + tasks[0].text;
      }
      assert TaskLineList(tasks) == [line] + TaskLineList(tasks[1..]);
    }
  }

  /** The lines of the block written for `tasks`. */
  function BlockLines(tasks: seq<Task>): seq<string> {
    [TasklistOpening, TasklistHeading] + TaskLineList(tasks) + [TasklistClosing]
  }

  lemma CreateIsJoin(tasks: seq<Task>)
    requires |tasks| > 0
    ensures CreateTasklistBody(tasks) == Join(BlockLines(tasks), "\n")
  {
    var head := [TasklistOpening, TasklistHeading];
    assert Join(head, "\n") == TasklistOpening + "\n" + TasklistHeading by {
      assert head[1..] == [TasklistHeading];
    }
    calc {
      CreateTasklistBody(tasks);
      (Join(head, "\n") + TaskLines(tasks)) + "\n" + TasklistClosing;
      { JoinTaskLines(head, tasks); }
      Join(head + TaskLineList(tasks), "\n") + "\n" + TasklistClosing;
      { JoinSnoc(head + TaskLineList(tasks), "\n", TasklistClosing); }
      Join(BlockLines(tasks), "\n");
    }
  }

  lemma BlockLinesSingle(tasks: seq<Task>)
    requires SingleLine(tasks)
    ensures NoneContains(BlockLines(tasks), '\n')
  {
    var lines := BlockLines(tasks);
    TaskLinesSingle(tasks);
    forall i | 0 <= i < |lines| ensures '\n' !in lines[i] {
      if 2 <= i < |lines| - 1 {
        assert lines[i] == TaskLineList(tasks)[i - 2];
      }
    }
  }

  /** The block is the opening line, the heading, exactly one line per task in order, and the closing fence. */
  lemma TasklistBodyLines(tasks: seq<Task>)
    requires |tasks| > 0 && SingleLine(tasks)
    ensures Split(CreateTasklistBody(tasks), '\n') == BlockLines(tasks)
  {
    CreateIsJoin(tasks);
    BlockLinesSingle(tasks);
    assert "\n" == ['\n'];
    SplitJoin(BlockLines(tasks), '\n');
  }

  lemma MarkerFacts(checked: bool)
    ensures |Marker(checked)| == 5 && Marker(checked)[0] == '-' && Trimmed(Marker(checked))
  {
  }

  /** Stripping a written line keeps its marker in front. */
  lemma MarkedLineStrip(marker: string, text: string)
    requires |marker| > 0 && Trimmed(marker) && Trimmed(text)
    ensures StartsWith(Strip(marker + " " + text), marker)
  {
    var line := marker + " " + text;
    if |text| == 0 {
      assert line == "" + marker + " ";
      StripPadded("", marker, " ");
    } else {
      assert line[0] == marker[0];
      assert line[|line| - 1] == text[|text| - 1];
      StripTrimmed(line);
      assert line[..|marker|] == marker;
    }
  }

  /** The text after the first five characters of a written line is the task's text. */
  lemma MarkedLineText(marker: string, text: string)
    requires |marker| == 5
    requires Trimmed(text)
    ensures Strip((marker + " " + text)[5..]) == text
  {
    assert (marker + " " + text)[5..] == " " + text + "";
    StripPadded(" ", text, "");
  }

  /** A written line is the task's marker, a space and its text. */
  lemma TaskLineIsMarked(t: Task)
    ensures TaskLine(t) == Marker(t.isChecked) + " " + t.text
  {
  }

  lemma ReadBack(line: string, text: string, checked: bool)
    requires |line| >= 5
    requires TaskOfLine(line) == Some(Task(Strip(line[5..]), checked))
    requires Strip(line[5..]) == text
    ensures TaskOfLine(line) == Some(Task(text, checked))
  {
  }

  /** A written task line reads back as the same task. */
  lemma TaskLineRoundTrip(t: Task)
    requires Trimmed(t.text)
    ensures TaskOfLine(TaskLine(t)) == Some(t)
  {
    var line := Marker(t.isChecked) + " " + t.text;
    TaskLineIsMarked(t);
    MarkerFacts(t.isChecked);
    MarkedLineStrip(Marker(t.isChecked), t.text);
    MarkedLineTask(line, t.isChecked);
    MarkedLineText(Marker(t.isChecked), t.text);
    ReadBack(line, t.text, t.isChecked);
  }

  lemma TaskLineTasks(t: Task)
    requires Trimmed(t.text)
    ensures LineTasks(TaskLine(t)) == [t]
  {
    TaskLineRoundTrip(t);
  }

  lemma {:induction false} ExtractTaskLines(tasks: seq<Task>)
    requires Serialisable(tasks)
    ensures ExtractFromLines(TaskLineList(tasks)) == tasks
    decreases |tasks|
  {
    if |tasks| > 0 {
      var line := TaskLine(tasks[0]);
      var rest := TaskLineList(tasks[1..]);
      assert Serialisable(tasks[1..]);
      calc {
        ExtractFromLines(TaskLineList(tasks));
        ExtractFromLines([line] + rest);
        { ExtractAppend([line], rest); }
        ExtractFromLines([line]) + ExtractFromLines(rest);
        { ExtractOne(line); }
        LineTasks(line) + ExtractFromLines(rest);
        { TaskLineTasks(tasks[0]); }
        [tasks[0]] + ExtractFromLines(rest);
        { ExtractTaskLines(tasks[1..]); }
        [tasks[0]] + tasks[1..];
        tasks;
      }
    }
  }

  lemma ExtractOne(line: string)
    ensures ExtractFromLines([line]) == LineTasks(line)
  {
    assert [line][1..] == [];
  }

  /** A line that neither starts with whitespace nor with `-` is not a checklist item. */
  lemma NotTaskLine(line: string)
    requires |line| > 0 && !IsSpace(line[0]) && line[0] != '-'
    ensures LineTasks(line) == []
  {
    var t := Strip(line);
    var k := StripCore(line);
    assert |t| > 0 ==> t[0] == line[0];
    StartsWithAt(t, UncheckedMarker, 0);
    StartsWithAt(t, CheckedMarker, 0);
  }

  /** The fence and heading lines of a written block contribute nothing. */
  lemma NotTaskLines()
    ensures LineTasks(TasklistOpening) == []
    ensures LineTasks(TasklistHeading) == []
    ensures LineTasks(TasklistClosing) == []
  {
    NotTaskLine(TasklistOpening);
    NotTaskLine(TasklistHeading);
    NotTaskLine(TasklistClosing);
  }

  lemma ExtractEmpty()
    ensures ExtractTasks("") == []
  {
    assert Split("", '\n') == [""];
    assert LineTasks("") == [] by {
      StripTrimmed("");
    }
  }

  lemma ExtractFrame()
    ensures ExtractFromLines([TasklistOpening, TasklistHeading]) == []
    ensures ExtractFromLines([TasklistClosing]) == []
  {
    NotTaskLines();
    assert [TasklistOpening, TasklistHeading][1..] == [TasklistHeading];
  }

  /** The lines of a written block yield exactly its tasks. */
  lemma ExtractBlockLines(tasks: seq<Task>)
    requires Serialisable(tasks)
    ensures ExtractFromLines(BlockLines(tasks)) == tasks
  {
    var head := [TasklistOpening, TasklistHeading];
    var body := TaskLineList(tasks);
    ExtractFrame();
    calc {
      ExtractFromLines(BlockLines(tasks));
      ExtractFromLines(head + body + [TasklistClosing]);
      { ExtractAppend(head + body, [TasklistClosing]); }
      ExtractFromLines(head + body) + [];
      { ExtractAppend(head, body); }
      [] + ExtractFromLines(body) + [];
      { ExtractTaskLines(tasks); }
      tasks;
    }
  }

  /** Reading back a written block recovers the tasks, in order and with their flags. */
  lemma TasklistRoundTrip(tasks: seq<Task>)
    requires Serialisable(tasks)
    ensures ExtractTasks(CreateTasklistBody(tasks)) == tasks
  {
    if |tasks| == 0 {
      ExtractEmpty();
    } else {
      TasklistBodyLines(tasks);
      ExtractBlockLines(tasks);
    }
  }

  /** Extracted tasks can always be written back and re-read without loss. */
  lemma ExtractCreateExtract(body: string)
    ensures ExtractTasks(CreateTasklistBody(ExtractTasks(body))) == ExtractTasks(body)
  {
    TasklistRoundTrip(ExtractTasks(body));
  }
}

=== FILE: tasklist_block.dfy ===
/**
 `replace_tasklist_in_issue_body`: the first match of the pattern
 "three backticks, any number of spaces, `[tasklist]`, then as few characters as possible up to
 the next three backticks" is replaced. The matcher is written out by hand: the leftmost start
 position that admits a match wins, and at that position the match is unique, because the spaces
 run up to the first non-space and the lazy repetition stops at the first closing fence.
 */
module TasklistBlock {
  import opened Wrappers
  import opened Text
  import Tasklist

  const Fence: string := "```"
  const Tag: string := "[tasklist]"

  /** Three backticks start at `i`. */
  predicate FenceAt(b: string, i: nat) {
    i + 3 <= |b| && b[i] == '`' && b[i + 1] == '`' && b[i + 2] == '`'
  }

  /** `[tasklist]` starts at `j`. */
  predicate TagAt(b: string, j: nat) {
    j + |Tag| <= |b| && b[j..j + |Tag|] == Tag
  }

  /** Only ` ` (the pattern's ` *`, not general whitespace) in `b[lo..hi]`. */
  predicate SpacesIn(b: string, lo: nat, hi: nat)
    requires lo <= hi <= |b|
  {
    forall m :: lo <= m < hi ==> b[m] == ' '
  }

  /** No fence starts at any position in `[lo, hi)`. */
  predicate NoFenceIn(b: string, lo: nat, hi: nat) {
    forall p :: lo <= p < hi ==> !FenceAt(b, p)
  }

  /** A match: opening fence at `start`, the tag at `tag`, and `b[..end]` ending in a closing fence. */
  datatype Span = Span(start: nat, tag: nat, end: nat)

  /**
   `b[sp.start..sp.end]` is what the pattern matches from `sp.start`: a fence, spaces, the tag,
   and everything up to and including the first fence that begins after the tag.
   */
  predicate IsBlock(b: string, sp: Span) {
    && sp.start + 3 <= sp.tag
    && sp.tag + |Tag| + 3 <= sp.end <= |b|
    && FenceAt(b, sp.start)
    && SpacesIn(b, sp.start + 3, sp.tag)
    && TagAt(b, sp.tag)
    && FenceAt(b, sp.end - 3)
    && NoFenceIn(b, sp.tag + |Tag|, sp.end - 3)
  }

  /** No match starts in `[lo, hi)`. */
  ghost predicate NoBlockIn(b: string, lo: nat, hi: nat) {
    forall sp: Span :: lo <= sp.start < hi ==> !IsBlock(b, sp)
  }

  ghost predicate NoBlock(b: string) {
    forall sp: Span :: !IsBlock(b, sp)
  }

  /** The first position at or after `j` that is not a space. */
  function SkipSpaces(b: string, j: nat): nat
    requires j <= |b|
    decreases |b| - j
  {
    if j < |b| && b[j] == ' ' then SkipSpaces(b, j + 1) else j
  }

  /** `SkipSpaces` passes over spaces only and stops at the end or on a non-space. */
  lemma {:induction false} SkipSpacesSpec(b: string, j: nat)
    requires j <= |b|
    ensures var k := SkipSpaces(b, j);
      && j <= k <= |b|
      && SpacesIn(b, j, k)
      && (k == |b| || b[k] != ' ')
    decreases |b| - j
  {
    if j < |b| && b[j] == ' ' {
      SkipSpacesSpec(b, j + 1);
    }
  }

  /** The first fence that starts at or after `from`. */
  function FindFence(b: string, from: nat): Option<nat>
    requires from <= |b|
    decreases |b| - from
  {
    if from + 3 > |b| then None
    else if FenceAt(b, from) then Some(from)
    else FindFence(b, from + 1)
  }

  /** `FindFence` finds a fence with none before it from `from` on, or reports that there is none. */
  lemma {:induction false} FindFenceSpec(b: string, from: nat)
    requires from <= |b|
    ensures var r := FindFence(b, from);
      && (r.Some? ==> from <= r.value && FenceAt(b, r.value) && NoFenceIn(b, from, r.value))
      && (r.None? ==> NoFenceIn(b, from, |b|))
    decreases |b| - from
  {
    if from + 3 <= |b| && !FenceAt(b, from) {
      FindFenceSpec(b, from + 1);
    }
  }

  /** A run of spaces that ends on a non-space is the run `SkipSpaces` finds. */
  lemma {:induction false} SpacesEnd(b: string, j: nat, k: nat)
    requires j <= k < |b| && SpacesIn(b, j, k) && b[k] != ' '
    ensures SkipSpaces(b, j) == k
    decreases k - j
  {
    if j < k {
      SpacesEnd(b, j + 1, k);
    }
  }

  /** A fence with none before it from `from` on is the one `FindFence` finds. */
  lemma {:induction false} FirstFence(b: string, from: nat, c: nat)
    requires from <= c && FenceAt(b, c) && NoFenceIn(b, from, c)
    ensures FindFence(b, from) == Some(c)
    decreases c - from
  {
    if from < c {
      assert !FenceAt(b, from);
      FirstFence(b, from + 1, c);
    }
  }

  /** At a given start there is at most one match, and it is the one `MatchAt` builds. */
  lemma BlockDetermined(b: string, sp: Span)
    requires IsBlock(b, sp)
    ensures SkipSpaces(b, sp.start + 3) == sp.tag
    ensures FindFence(b, sp.tag + |Tag|) == Some(sp.end - 3)
  {
    assert b[sp.tag] == b[sp.tag..sp.tag + |Tag|][0];
    SpacesEnd(b, sp.start + 3, sp.tag);
    FirstFence(b, sp.tag + |Tag|, sp.end - 3);
  }

  /** The match of the pattern starting exactly at `s`, if any. */
  function MatchAt(b: string, s: nat): Option<Span>
    requires s <= |b|
  {
    if !FenceAt(b, s) then None
    else
      var j := SkipSpaces(b, s + 3);
      if !TagAt(b, j) then None
      else
        match FindFence(b, j + |Tag|)
        case None => None
        case Some(c) => Some(Span(s, j, c + 3))
  }

  /** A match found at `s` is a block starting there; when none is found, no block starts there. */
  lemma MatchAtSpec(b: string, s: nat)
    requires s <= |b|
    ensures MatchAt(b, s).Some? ==> MatchAt(b, s).value.start == s && IsBlock(b, MatchAt(b, s).value)
    ensures MatchAt(b, s).None? ==> NoBlockIn(b, s, s + 1)
  {
    if FenceAt(b, s) {
      var j := SkipSpaces(b, s + 3);
      SkipSpacesSpec(b, s + 3);
      if TagAt(b, j) {
        FindFenceSpec(b, j + |Tag|);
      }
      if MatchAt(b, s).None? {
        NoMatchAt(b, s);
      }
    }
  }

  /** Where the tag does not follow the spaces, or no fence follows the tag, nothing matches. */
  lemma NoMatchAt(b: string, s: nat)
    requires FenceAt(b, s)
    requires !TagAt(b, SkipSpaces(b, s + 3)) || FindFence(b, SkipSpaces(b, s + 3) + |Tag|).None?
    ensures NoBlockIn(b, s, s + 1)
  {
    forall sp: Span | s <= sp.start < s + 1 ensures !IsBlock(b, sp) {
      if IsBlock(b, sp) {
        BlockDetermined(b, sp);
      }
    }
  }

  /** The leftmost match at or after `s`. */
  function FindFrom(b: string, s: nat): Option<Span>
    requires s <= |b|
    decreases |b| - s
  {
    match MatchAt(b, s)
    case Some(sp) => Some(sp)
    case None =>
      if s == |b| then None
      else FindFrom(b, s + 1)
  }

  /** What `FindFrom` finds is a block with none starting between `s` and it; otherwise none starts at or after `s`. */
  lemma {:induction false} FindFromSpec(b: string, s: nat)
    requires s <= |b|
    ensures var r := FindFrom(b, s);
      && (r.Some? ==> s <= r.value.start && IsBlock(b, r.value) && NoBlockIn(b, s, r.value.start))
      && (r.None? ==> NoBlockIn(b, s, |b| + 1))
    decreases |b| - s
  {
    MatchAtSpec(b, s);
    if MatchAt(b, s).None? && s < |b| {
      FindFromSpec(b, s + 1);
    }
  }

  /** A match never starts past the end of the body. */
  lemma BlockInside(b: string, sp: Span)
    requires IsBlock(b, sp)
    ensures sp.start < |b|
  {
  }

  /** The match `re.sub(..., count=1)` replaces: the leftmost one, or none at all. */
  function FindTasklist(b: string): Option<Span> {
    FindFrom(b, 0)
  }

  /** The match found is the leftmost block; when none is found, the body has no block at all. */
  lemma FindTasklistSpec(b: string)
    ensures var r := FindTasklist(b);
      && (r.Some? ==> IsBlock(b, r.value) && NoBlockIn(b, 0, r.value.start))
      && (r.None? ==> NoBlock(b))
  {
    FindFromSpec(b, 0);
    if FindTasklist(b).None? {
      forall sp: Span ensures !IsBlock(b, sp) {
        if IsBlock(b, sp) {
          BlockInside(b, sp);
        }
      }
    }
  }

  /**
   `replace_tasklist_in_issue_body`: only the leftmost block is replaced by `repl`, and the text
   before and after it is kept; a body with no block comes back unchanged. The replacement is
   inserted literally.
   */
  function ReplaceTasklist(b: string, repl: string): (r: string)
    ensures NoBlock(b) ==> r == b
    ensures forall sp :: IsBlock(b, sp) && NoBlockIn(b, 0, sp.start) ==> r == b[..sp.start] + repl + b[sp.end..]
  {
    FindTasklistSpec(b);
    forall sp | IsBlock(b, sp) && NoBlockIn(b, 0, sp.start)
      ensures FindTasklist(b) == Some(sp)
    {
      assert FindTasklist(b).Some?;
      LeftmostUnique(b, sp, FindTasklist(b).value);
    }
    match FindTasklist(b)
    case None => b
    case Some(sp) => b[..sp.start] + repl + b[sp.end..]
  }

  /** Two matches of which neither starts before the other are the same match. */
  lemma LeftmostUnique(b: string, sp: Span, sp': Span)
    requires IsBlock(b, sp) && NoBlockIn(b, 0, sp.start)
    requires IsBlock(b, sp') && NoBlockIn(b, 0, sp'.start)
    ensures sp == sp'
  {
    assert sp.start == sp'.start;
    BlockDetermined(b, sp);
    BlockDetermined(b, sp');
  }

  /** The block written between `pre` and `post`, as a span of the whole text. */
  function WrappedSpan(pre: string, mid: string): Span {
    Span(|pre|, |pre| + |Fence|, |pre| + |Fence + Tag + mid + Fence|)
  }

  lemma WrappedIsBlock(pre: string, mid: string, post: string)
    requires '`' !in mid
    ensures IsBlock(pre + (Fence + Tag + mid + Fence) + post, WrappedSpan(pre, mid))
  {
    var w := Fence + Tag + mid + Fence;
    var b := pre + w + post;
    var s, e := |pre|, |pre| + |w|;
    WrappedChars(pre, w, post);
    assert FenceAt(b, s) by {
      assert w[0] == '`' && w[1] == '`' && w[2] == '`';
    }
    assert FenceAt(b, e - 3) by {
      assert w[|w| - 3] == '`' && w[|w| - 2] == '`' && w[|w| - 1] == '`';
    }
    WrappedTag(pre, mid, post);
    WrappedNoFence(pre, mid, post);
  }

  /** Inside `pre + w + post`, the characters of `w` sit `|pre|` further on. */
  lemma WrappedChars(pre: string, w: string, post: string)
    ensures forall i :: 0 <= i < |w| ==> (pre + w + post)[|pre| + i] == w[i]
  {
  }

  lemma WrappedTag(pre: string, mid: string, post: string)
    ensures TagAt(pre + (Fence + Tag + mid + Fence) + post, |pre| + 3)
  {
    var w := Fence + Tag + mid + Fence;
    var b := pre + w + post;
    var s := |pre|;
    assert b[s..s + |w|] == w;
    assert b[s + 3..s + 3 + |Tag|] == w[3..3 + |Tag|] == Tag;
  }

  lemma WrappedNoFence(pre: string, mid: string, post: string)
    requires '`' !in mid
    ensures NoFenceIn(pre + (Fence + Tag + mid + Fence) + post, |pre| + 13, |pre| + |Fence + Tag + mid + Fence| - 3)
  {
    var w := Fence + Tag + mid + Fence;
    var b := pre + w + post;
    var s, e := |pre|, |pre| + |w|;
    WrappedChars(pre, w, post);
    forall p | s + 13 <= p < e - 3 ensures !FenceAt(b, p) {
      assert b[p] == w[p - s] == mid[p - s - 13];
    }
  }

  lemma WrappedLeftmost(pre: string, mid: string, post: string)
    requires '`' !in pre
    ensures NoBlockIn(pre + (Fence + Tag + mid + Fence) + post, 0, |pre|)
  {
    var b := pre + (Fence + Tag + mid + Fence) + post;
    forall sp: Span | 0 <= sp.start < |pre| ensures !IsBlock(b, sp) {
      assert b[sp.start] == pre[sp.start];
    }
  }

  /**
   A block written as fence, tag, backtick-free text and fence, behind backtick-free text,
   is the block that gets replaced, and nothing around it changes.
   */
  lemma ReplaceWrapped(pre: string, mid: string, post: string, repl: string)
    requires '`' !in pre && '`' !in mid
    ensures ReplaceTasklist(pre + (Fence + Tag + mid + Fence) + post, repl) == pre + repl + post
  {
    var b := pre + (Fence + Tag + mid + Fence) + post;
    var sp := WrappedSpan(pre, mid);
    WrappedIsBlock(pre, mid, post);
    WrappedLeftmost(pre, mid, post);
    assert ReplaceTasklist(b, repl) == b[..sp.start] + repl + b[sp.end..];
    assert b[..sp.start] == pre;
    assert b[sp.end..] == post;
  }

  /** No task text contains a backtick. */
  predicate NoBackticks(tasks: seq<Tasklist.Task>) {
    forall i :: 0 <= i < |tasks| ==> '`' !in tasks[i].text
  }

  lemma {:induction false} TaskLinesNoBackticks(tasks: seq<Tasklist.Task>)
    requires NoBackticks(tasks)
    ensures '`' !in Tasklist.TaskLines(tasks)
    decreases |tasks|
  {
    if |tasks| > 0 {
      assert NoBackticks(tasks[1..]);
      TaskLinesNoBackticks(tasks[1..]);
      var t := tasks[0];
      assert '`' !in t.text;
      assert '`' !in "\n" + Tasklist.TaskLine(t);
    }
  }

  /** A written block is fence, tag, a backtick-free middle and fence. */
  lemma WrittenBlock(tasks: seq<Tasklist.Task>) returns (mid: string)
    requires |tasks| > 0 && NoBackticks(tasks)
    ensures Tasklist.CreateTasklistBody(tasks) == Fence + Tag + mid + Fence
    ensures '`' !in mid
  {
    mid := "\n" + Tasklist.TasklistHeading + Tasklist.TaskLines(tasks) + "\n";
    TaskLinesNoBackticks(tasks);
    assert Tasklist.TasklistOpening == Fence + Tag;
    assert Tasklist.TasklistClosing == Fence;
  }

  /**
   Replacing the block `create_tasklist_body` wrote, in a body whose text before it has no
   backtick, swaps exactly that block and keeps the surrounding text.
   */
  lemma ReplaceWritten(pre: string, tasks: seq<Tasklist.Task>, post: string, repl: string)
    requires '`' !in pre && |tasks| > 0 && NoBackticks(tasks)
    ensures ReplaceTasklist(pre + Tasklist.CreateTasklistBody(tasks) + post, repl) == pre + repl + post
  {
    var mid := WrittenBlock(tasks);
    ReplaceWrapped(pre, mid, post, repl);
  }
}

=== FILE: text.dfy ===
/**
 The few Python string operations the tool relies on, over `seq<char>`:
 `str.isspace`, `str.strip()`, `str.startswith`, `str.split(sep)` and `sep.join`.
 */
module Text {

  /** Python's `str.isspace` for one character: the characters `str.strip()` removes. */
  predicate IsSpace(c: char) {
    var n := c as int;
    || n == 0x20
    || (0x09 <= n <= 0x0D)
    || (0x1C <= n <= 0x1F)
    || n == 0x85
    || n == 0xA0
    || n == 0x1680
    || (0x2000 <= n <= 0x200A)
    || n == 0x2028
    || n == 0x2029
    || n == 0x202F
    || n == 0x205F
    || n == 0x3000
  }

  predicate AllSpace(s: string) {
    forall i :: 0 <= i < |s| ==> IsSpace(s[i])
  }

  /** Neither end of `s` is whitespace: `s` is a fixed point of `strip()`. */
  predicate Trimmed(s: string) {
    |s| == 0 || (!IsSpace(s[0]) && !IsSpace(s[|s| - 1]))
  }

  predicate StartsWith(s: string, prefix: string) {
    |prefix| <= |s| && s[..|prefix|] == prefix
  }

  /** A string that starts with `prefix` agrees with it at every position of `prefix`. */
  lemma StartsWithAt(s: string, prefix: string, i: nat)
    requires i < |prefix|
    ensures StartsWith(s, prefix) ==> i < |s| && s[i] == prefix[i]
  {
    if StartsWith(s, prefix) {
      assert s[..|prefix|][i] == s[i];
    }
  }

  /** Dropping `n` characters from `a + b` drops `n - |a|` from `b` once `a` is used up. */
  lemma DropConcat(a: string, b: string, n: nat)
    requires |a| <= n <= |a| + |b|
    ensures (a + b)[n..] == b[n - |a|..]
  {
  }

  lemma StripDropConcat(a: string, b: string, n: nat)
    requires |a| <= n <= |a| + |b|
    ensures Strip((a + b)[n..]) == Strip(b[n - |a|..])
  {
    DropConcat(a, b, n);
  }

  predicate EndsWith(s: string, suffix: string) {
    |suffix| <= |s| && s[|s| - |suffix|..] == suffix
  }

  /** Drops leading whitespace. */
  function TrimStart(s: string): string {
    if |s| > 0 && IsSpace(s[0]) then TrimStart(s[1..]) else s
  }

  /** What `TrimStart` keeps is a suffix of `s` after a run of whitespace, starting on a non-space. */
  lemma {:induction false} TrimStartShape(s: string)
    ensures var r := TrimStart(s);
      && |r| <= |s| && r == s[|s| - |r|..]
      && AllSpace(s[..|s| - |r|])
      && (|r| == 0 || !IsSpace(r[0]))
    decreases |s|
  {
    if |s| > 0 && IsSpace(s[0]) {
      TrimStartShape(s[1..]);
      var r := TrimStart(s);
      assert s[..|s| - |r|] == [s[0]] + s[1..][..|s| - 1 - |r|];
    }
  }

  /** Drops trailing whitespace. */
  function TrimEnd(s: string): string {
    if |s| > 0 && IsSpace(s[|s| - 1]) then TrimEnd(s[..|s| - 1]) else s
  }

  /** What `TrimEnd` keeps is a prefix of `s` before a run of whitespace, ending on a non-space. */
  lemma {:induction false} TrimEndShape(s: string)
    ensures var r := TrimEnd(s);
      && |r| <= |s| && r == s[..|r|]
      && AllSpace(s[|r|..])
      && (|r| == 0 || !IsSpace(r[|r| - 1]))
    decreases |s|
  {
    if |s| > 0 && IsSpace(s[|s| - 1]) {
      TrimEndShape(s[..|s| - 1]);
      var r := TrimEnd(s);
      assert s[|r|..] == s[..|s| - 1][|r|..] + [s[|s| - 1]];
    }
  }

  /** `r` is `s[k..]` cut short where only whitespace follows, and only whitespace precedes `k`. */
  predicate CoreAt(s: string, k: nat, r: string) {
    && k + |r| <= |s|
    && s[k..k + |r|] == r
    && AllSpace(s[..k])
    && AllSpace(s[k + |r|..])
  }

  /** Python's `s.strip()`: `s` with whitespace removed from both ends (see `StripCore`). */
  function Strip(s: string): (r: string)
    ensures Trimmed(r)
    ensures |r| <= |s|
  {
    TrimStartShape(s);
    TrimEndShape(TrimStart(s));
    TrimEnd(TrimStart(s))
  }

  /** What `strip()` keeps is one contiguous piece of `s`, with only whitespace around it. */
  lemma StripCore(s: string) returns (k: nat)
    ensures CoreAt(s, k, Strip(s))
  {
    var t := TrimStart(s);
    TrimStartShape(s);
    TrimEndShape(t);
    var r := TrimEnd(t);
    k := |s| - |t|;
    assert t == s[k..];
    assert s[k..k + |r|] == r;
    assert s[k + |r|..] == t[|r|..];
  }

  /** `strip()` introduces no character: one absent from `s` is absent from `strip(s)`. */
  lemma StripKeepsOut(s: string, c: char)
    ensures c !in s ==> c !in Strip(s)
  {
    var r := Strip(s);
    var k := StripCore(s);
    SliceKeepsOut(s, k, k + |r|, c);
  }

  lemma SliceKeepsOut(s: string, a: nat, b: nat, c: char)
    requires a <= b <= |s|
    ensures c !in s ==> c !in s[a..b]
  {
    if c in s[a..b] {
      var i :| 0 <= i < b - a && s[a..b][i] == c;
      assert s[a + i] == c;
    }
  }

  lemma {:induction false} TrimStartPadded(a: string, t: string)
    requires AllSpace(a) && (|t| == 0 || !IsSpace(t[0]))
    ensures TrimStart(a + t) == t
    decreases |a|
  {
    if |a| > 0 {
      assert (a + t)[1..] == a[1..] + t;
      TrimStartPadded(a[1..], t);
    } else {
      assert a + t == t;
    }
  }

  lemma {:induction false} TrimEndPadded(t: string, b: string)
    requires AllSpace(b) && (|t| == 0 || !IsSpace(t[|t| - 1]))
    ensures TrimEnd(t + b) == t
    decreases |b|
  {
    if |b| > 0 {
      assert (t + b)[..|t + b| - 1] == t + b[..|b| - 1];
      TrimEndPadded(t, b[..|b| - 1]);
    } else {
      assert t + b == t;
    }
  }

  /** Stripping removes exactly the whitespace padding around a trimmed core. */
  lemma StripPadded(a: string, t: string, b: string)
    requires AllSpace(a) && Trimmed(t) && AllSpace(b)
    ensures Strip(a + t + b) == t
  {
    if |t| == 0 {
      assert a + t + b == a + b;
      assert AllSpace(a + b);
      TrimStartPadded(a + b, "");
      assert a + b + "" == a + b;
    } else {
      assert a + t + b == a + (t + b);
      TrimStartPadded(a, t + b);
      TrimEndPadded(t, b);
    }
  }

  /** A trimmed string is left alone by `strip()`. */
  lemma StripTrimmed(s: string)
    requires Trimmed(s)
    ensures Strip(s) == s
  {
    assert "" + s + "" == s;
    StripPadded("", s, "");
  }

  /** `strip()` is idempotent. */
  lemma StripIdempotent(s: string)
    ensures Strip(Strip(s)) == Strip(s)
  {
    StripTrimmed(Strip(s));
  }

  /** Python's `sep.join(parts)`. */
  function Join(parts: seq<string>, sep: string): string
  {
    if |parts| == 0 then ""
    else if |parts| == 1 then parts[0]
    else parts[0] + sep + Join(parts[1..], sep)
  }

  /** One step of `join`: the first piece, a separator, then the rest joined. */
  lemma JoinCons(parts: seq<string>, sep: string)
    requires |parts| >= 2
    ensures Join(parts, sep) == parts[0] + sep + Join(parts[1..], sep)
  {
  }

  /** No piece contains the character `d`. */
  predicate NoneContains(parts: seq<string>, d: char) {
    forall i :: 0 <= i < |parts| ==> d !in parts[i]
  }

  /** Python's `s.split(d)` for a one-character separator `d`: the unique
      list of `d`-free pieces that `d`-joins back to `s`. */
  function Split(s: string, d: char): (parts: seq<string>)
    ensures |parts| >= 1
    ensures NoneContains(parts, d)
    ensures Join(parts, [d]) == s
    decreases |s|
  {
    if |s| == 0 then [""]
    else
      var rest := Split(s[1..], d);
      if s[0] == d then
        assert ([""] + rest)[1..] == rest;
        [""] + rest
      else
        var parts := [[s[0]] + rest[0]] + rest[1..];
        assert parts[1..] == rest[1..];
        parts
  }

  /** A separator-free string is one piece. */
  lemma {:induction false} SplitNoSeparator(a: string, d: char)
    requires d !in a
    ensures Split(a, d) == [a]
    decreases |a|
  {
    if |a| > 0 {
      SplitNoSeparator(a[1..], d);
      assert [a[0]] + a[1..] == a;
    }
  }

  /** Splitting peels off the piece before the first separator. */
  lemma {:induction false} SplitCons(a: string, d: char, b: string)
    requires d !in a
    ensures Split(a + [d] + b, d) == [a] + Split(b, d)
    decreases |a|
  {
    var s := a + [d] + b;
    if |a| == 0 {
      assert s[1..] == b;
    } else {
      assert s[1..] == a[1..] + [d] + b;
      SplitCons(a[1..], d, b);
      assert [s[0]] + a[1..] == a;
    }
  }

  /** `split` inverts `join` on separator-free pieces. */
  lemma {:induction false} SplitJoin(parts: seq<string>, d: char)
    requires |parts| >= 1
    requires NoneContains(parts, d)
    ensures Split(Join(parts, [d]), d) == parts
    decreases |parts|
  {
    if |parts| == 1 {
      SplitNoSeparator(parts[0], d);
    } else {
      SplitJoin(parts[1..], d);
      SplitCons(parts[0], d, Join(parts[1..], [d]));
      assert [parts[0]] + parts[1..] == parts;
    }
  }

  /** Joining after appending one more piece adds a separator and that piece. */
  lemma {:induction false} JoinSnoc(parts: seq<string>, sep: string, x: string)
    requires |parts| >= 1
    ensures Join(parts + [x], sep) == Join(parts, sep) + sep + x
    decreases |parts|
  {
    if |parts| == 1 {
      assert (parts + [x])[1..] == [x];
    } else {
      assert (parts + [x])[1..] == parts[1..] + [x];
      JoinSnoc(parts[1..], sep, x);
    }
  }

  /** Each piece preceded by `sep`, all concatenated: what a loop of `s += sep + piece` builds. */
  function PrefixEach(parts: seq<string>, sep: string): (r: string)
    ensures |parts| > 0 ==> StartsWith(r, sep)
  {
    if |parts| == 0 then "" else sep + parts[0] + PrefixEach(parts[1..], sep)
  }

  /** Appending separator-prefixed pieces to a joined list joins the longer list. */
  lemma {:induction false} JoinExtend(prefix: seq<string>, parts: seq<string>, sep: string)
    requires |prefix| >= 1
    ensures Join(prefix, sep) + PrefixEach(parts, sep) == Join(prefix + parts, sep)
    decreases |parts|
  {
    if |parts| == 0 {
      assert prefix + parts == prefix;
    } else {
      var x := parts[0];
      calc {
        Join(prefix, sep) + PrefixEach(parts, sep);
        Join(prefix, sep) + (sep + x + PrefixEach(parts[1..], sep));
        (Join(prefix, sep) + sep + x) + PrefixEach(parts[1..], sep);
        { JoinSnoc(prefix, sep, x); }
        Join(prefix + [x], sep) + PrefixEach(parts[1..], sep);
        { JoinExtend(prefix + [x], parts[1..], sep); }
        Join(prefix + [x] + parts[1..], sep);
        { assert prefix + [x] + parts[1..] == prefix + parts; }
        Join(prefix + parts, sep);
      }
    }
  }

  /** Cutting at the first occurrence of `c` is unambiguous: text before a first `c` is determined. */
  lemma CutAtFirst(a: string, b: string, a': string, b': string, c: char)
    requires c !in a && c !in a'
    requires a + [c] + b == a' + [c] + b'
    ensures a == a' && b == b'
  {
    var s := a + [c] + b;
    assert s[|a|] == c && s[|a'|] == c;
    assert a == s[..|a|] && a' == s[..|a'|];
    assert b == s[|a| + 1..] && b' == s[|a'| + 1..];
  }
}

=== FILE: wrappers.dfy ===
/** Failure-carrying result types used in place of the exceptions the tool raises. */
module Wrappers {

  /** A value that may be absent (a missing JSON field, an unmatched pattern). */
  datatype Option<+T> = None | Some(value: T)

  /** Either a value or the error that replaced it. */
  datatype Result<+R, +E> = Success(value: R) | Failure(error: E)
}
